=== FILE: README.md ===
# d3-queue 1.0.7 task queue, modelled in Dafny

The dashboard's scripts carry a verbatim copy of d3-queue 1.0.7: the function
`queue(parallelism)` in `app/js/custom.js` (lines 4-72), and again, byte for
byte, in `app/js/Dashboard.js` (same lines). It runs asynchronous tasks with
at most `parallelism` of them in flight, keeps each task's result in the slot
the task was deferred into, stops at the first error, and calls one
registered handler with either that error or all the results.

This project models that closure as an immutable record with one pure
transition per thing that can happen to it, and proves what the code
promises about it. Because the two copies are identical, one model covers
both; the table below cites one copy or the other row by row, and every
citation holds for the same lines of the other copy.

- `counting.dfy` (`Counting`): counting the slots that satisfy a predicate.
- `queue.dfy` (`TaskQueue`): the closure state `Queue` and the following operations.
  - `Defer`, `Complete` and `Await`/`AwaitAll` (`defer`, `callback(i)`, `await`/`awaitAll`).
  - `Resume`, which evaluates the loop head of `pop` once.
  - `Pop`, which runs a whole pass of `pop`.
  - `Notify` (`notify`).
  - `Valid`, the invariant every reachable state keeps.
- `traces.dfy` (`Traces`): runs, meaning arbitrary sequences of events.
  - The events are `defer`, callbacks, `await`/`awaitAll` and loop-head resumptions.
  - A run may put them in any order, so the results hold for every way callbacks can nest inside task invocations and passes of `pop`.
- `passes.dfy` (`Passes`): the operations of `TaskQueue` are particular runs. What is proved about runs therefore holds for them too.
- `timing.dfy` (`Timing`): over a run of callbacks, registering the handler before the run or after it gives the same single handler call.
- `scenarios.dfy` (`Scenarios`): two short histories worked out in full, together with the general facts they rest on.

Modelling choices:

- A task's slot is `Queued(args)`, `Running(args)`, `Discarded(args)` or `Done(value)`. In the source, the array holds the arguments until a result overwrites them. The status only records where the task is in its life.
- Starting a task is the effect `Invoke(i, args)`, and calling the handler is the effect `Call(handler, payload)`.
- A failed queue is one whose `error` is set. This stands in for `started = remaining = NaN`: `started` and `remaining` are simply left as they were.
- `parallelism` is a `nat`, with 0 standing for the unbounded queue that a falsy argument gives (`parallelism = Infinity`).
- The source asks each task to call its callback once, after it started. Every callback-taking member therefore requires slot `i` to be `Running`, and a run containing any other callback is `None`.

## Model

| member | source | states |
|---|---|---|
| TaskQueue.Empty | app/js/custom.js:5-15 | A new queue has the given bound, no task slots and no handler. It satisfies the invariant, has nothing remaining, has not failed and has nothing to start. |
| TaskQueue.Resume | app/js/custom.js:18-24 | One loop head either starts exactly slot `started` with its own arguments or does nothing. It starts the slot exactly when the queue has not failed, a task is waiting and the bound allows another. `started` and `active` then go up by one, `popping` is the loop condition's value, nothing else changes, and the invariant (bound included) is kept. |
| TaskQueue.Pop | app/js/custom.js:17-26 | A pass starts consecutive slots from `started` in slot order, each exactly once and with its own arguments. `active` grows by the number started. The pass stops only when nothing more may start, with `popping` false, and the bound still holds. |
| TaskQueue.Defer | app/js/custom.js:51-58 | On a failed queue `defer` changes nothing and does nothing. Otherwise the task gets the next slot and `remaining` goes up by one. The pass that follows starts consecutive waiting slots in order and leaves nothing startable. The bound, `error` and the handler stay as they were. |
| TaskQueue.Enqueue | app/js/Dashboard.js:53-54 | Pushing the arguments and incrementing `remaining` appends one waiting slot, keeps the invariant and changes nothing else. |
| TaskQueue.Complete | app/js/custom.js:29-41 | After a callback the first error is kept for good; otherwise the callback's error becomes the queue's error. On a failed queue nothing starts and nothing is called. Before any error, an error starts nothing and notifies the handler at once. A success stores the value in slot `i` and lowers `remaining` by one. The handler is called exactly when this was the last remaining task and one is registered, and the last result makes exactly `notify`'s call. A success that is not the last starts nothing and keeps the `popping` guard set under a running pass, and otherwise runs a pass that leaves nothing startable. Newly started tasks are the next slots in order. A slot that holds a result never changes, and only slot `i` can gain one. Every results payload is exactly the slot array, with every slot holding a result. |
| TaskQueue.Squelch | app/js/custom.js:30-31 | A callback after the first error only decrements `active` and calls nothing. |
| TaskQueue.Fail | app/js/custom.js:32-35 | The first error is recorded, the queue counts as settled, and nothing can start any more. The handler, if one is registered, is called once with the error alone. |
| TaskQueue.Succeed | app/js/custom.js:36-40 | A result lands in slot `i` and `remaining` goes down by one. The handler is called exactly when this was the last remaining task and a handler is registered, and then with every slot holding its result. Otherwise: under a running pass nothing starts; with no pass running, a new pass starts the next slots until nothing more may start. |
| TaskQueue.Store | app/js/Dashboard.js:30-38 | `--active`, `tasks[i] = r` and `--remaining` keep the invariant. When `remaining` reaches 0, every slot holds a result. |
| TaskQueue.Reschedule | app/js/Dashboard.js:38 | `popping \|\| pop()` does nothing under a running pass. Otherwise it runs a full pass that leaves nothing startable and calls no handler. |
| TaskQueue.Notify | app/js/custom.js:44-48 | A notification calls the handler at most once and starts no task. |
| TaskQueue.SettledHoldsResults | app/js/custom.js:9 | `remaining` counts the unfinished tasks: in a queue that has not failed, `remaining` 0 means every slot holds a result. |
| TaskQueue.Await | app/js/custom.js:59-64 | The handler is replaced. It is called at once exactly when nothing remains or the queue has failed: with the error alone, or otherwise with the results as separate arguments, all slots holding results. |
| TaskQueue.AwaitAll | app/js/custom.js:65-70 | Like `await`, but the results are passed as one array. With no task deferred that array is empty. |
| Traces.DeferStep | app/js/Dashboard.js:51-56 | `defer` up to the first loop head of its pass is ignored on a failed queue. Otherwise it appends one slot and raises `remaining` by one, and keeps the bound, error and handler. Its loop head starts the next slot, and sets `popping`, exactly when the bound allows one more task. It calls no handler. |
| Traces.CallbackStep | app/js/Dashboard.js:29-41 | A callback up to the first loop head of the pass it may begin keeps the first error and keeps every result in place. It starts at most the next slot. Before any error, an error starts nothing. A success stores the value in slot `i` and lowers `remaining` by one. A success that is not the last starts nothing under a running pass, and otherwise starts the next waiting slot if there is one. The `popping` guard stays set under a running pass; otherwise it is set exactly when a success that is not the last finds a waiting slot. Before any error, it calls the handler exactly when it leaves nothing remaining (or fails the queue), with what the queue then holds. |
| Traces.ResultStep | app/js/Dashboard.js:36-40 | The success path keeps the error, stores the value in slot `i` and in no other slot, and lowers `remaining` by one. If it was not the last task, it starts nothing under a running pass, and otherwise starts the next waiting slot if there is one. The `popping` guard stays set under a running pass; otherwise it is set exactly when a task is waiting and this was not the last. It calls the handler exactly when this was the last remaining task and a handler is registered, and then with the final slots. |
| Traces.Apply | app/js/Dashboard.js:17-70 | Every event keeps the invariant and the bound. `started` never decreases, and the tasks started are exactly the next slots in order. |
| Traces.Run | app/js/custom.js:15-19 | Along every run, however callbacks nest, `active` never exceeds `parallelism` (0 meaning unbounded). The tasks started are exactly slots `started` onwards, in order, each once. |
| Traces.FirstErrorWins | app/js/custom.js:31-35 | At the end of every run the queue holds the error it already had, or else the error of the first callback that reported one. |
| Traces.FailureIsFinal | app/js/Dashboard.js:30-56 | After the first error, every run keeps that error and starts no task. No new task is accepted, and every handler call carries that error alone. |
| Traces.ResultsInSubmissionOrder | app/js/custom.js:37-47 | Each slot holding a result holds the one its own task reported. Every results payload a handler receives holds only reported results, ordered by slot, whatever order the callbacks came in. |
| Traces.FreshQueueResults | app/js/Dashboard.js:37-47 | For every run from a new queue, both directions hold. A slot's result was reported by its own callback, and every result reported before the first error is in its slot at the end. Every results payload holds only results, and is the slot array as it stood when the handler was called. |
| Traces.RegistrationTimingIrrelevant | app/js/custom.js:59-70 | On a queue that has not failed, registering the handler just before a callback or just after it makes no difference to how the handler is called. |
| Traces.TimingOnLastResult | app/js/Dashboard.js:59-69 | A handler registered just after the last result is called with the same payload as one registered just before it. |
| Traces.ResultsStored | app/js/custom.js:36-38 | Along every run of a queue that has not failed, each result a callback reports before the first error is in its own slot at the end of the run. |
| Traces.PayloadsAreFinalSlots | app/js/custom.js:46-47 | Every results payload of a run holds only results, and is the leading part of the run's final slot array in slot order. |
| Traces.Admit | app/js/Dashboard.js:52-55 | `defer` on a queue that has not failed appends the task's slot and raises `remaining` by one. Its call to `pop()` starts the next slot exactly when the bound allows one more task, and calls nothing. |
| Traces.Report | app/js/custom.js:32-40 | A callback before the first error either records its error, starting nothing, or stores its result in slot `i`. A result that is not the last starts the next waiting slot exactly when no pass is running and one is waiting. The `popping` guard stays set under a running pass; otherwise it is set exactly when that start happens. It calls the handler exactly when it settles the queue, with what the queue then holds. |
| Traces.ResumeUnlessPopping | app/js/custom.js:38 | `popping \|\| pop()` does nothing under a running pass. Otherwise it runs one loop head, which starts the next slot exactly when `pop`'s loop condition holds, and calls nothing. |
| Traces.TimingOnError | app/js/Dashboard.js:32-35 | A handler registered just before or just after the first error gets exactly that error. |
| Timing.RunIgnoresAwaiter | app/js/custom.js:28-41 | Callbacks and loop heads do the same to slots and counters whatever handler is registered. |
| Timing.SettledStays | app/js/custom.js:30-31 | Once nothing remains or the queue has failed, later callbacks and loop heads change no slot, keep the error and call no handler. |
| Timing.NotifiedOnce | app/js/custom.js:35-39 | Over a run of callbacks from an unsettled queue, the handler is called only if the run settles the queue, and then once, with what the final queue holds. |
| Timing.RegistrationBeforeOrAfterRun | app/js/custom.js:59-70 | Registering `await`/`awaitAll` before a run of callbacks that ends with nothing remaining gives the same handler calls as registering it after the run: exactly one, the same in both orders. |
| Passes.PassIsLoopHeads | app/js/Dashboard.js:17-26 | A whole pass of `pop` is the run of as many loop heads as it starts tasks, plus one. |
| Passes.DeferIsARun | app/js/Dashboard.js:51-58 | `defer` with every started task returning before calling back is the run of a `defer` event followed by loop heads. |
| Passes.CompleteIsARun | app/js/Dashboard.js:28-42 | A callback, with every task its pass starts returning before calling back, is the run of that callback followed by loop heads. |
| Scenarios.DeferStartsAtOnce | app/js/custom.js:52-55 | With a free slot and nothing waiting, a deferred task starts at once in the next slot and nothing else happens. |
| Scenarios.DeferWaits | app/js/custom.js:18 | With every slot taken, a deferred task waits. |
| Scenarios.ResultStartsNext | app/js/custom.js:37-38 | A result that frees the only slot, with no pass running, stores the result and starts exactly the next waiting task. |
| Scenarios.FreedSlotStartsWaitingTask | app/js/Dashboard.js:15-38 | With `parallelism` 2, `a` and `b` start and `c` waits. `b`'s result starts `c` in slot 2. |
| Scenarios.FirstFailureSettles | app/js/Dashboard.js:30-46 | Then `c` fails and the handler registered in between gets the error alone. `a`'s later result calls nothing and leaves the error in place. |
| Scenarios.HandlerCalledAgain | app/js/custom.js:38-68 | A handler registered on an empty queue is called at once with no results. It is called a second time when a task deferred afterwards finishes. |

## Where the intended contract and the code differ

The model follows the code in the first two cases. It does not reproduce the third.

- d3-queue's contract is usually read as "the handler fires exactly once". The code does not keep that promise:
  - `await`/`awaitAll` call the new handler immediately whenever nothing remains, so registering twice calls twice;
  - a task deferred after everything finished makes the last result notify again (`Scenarios.HandlerCalledAgain`).
- `await` passes `null` followed by every result as a separate argument, not a single last result (`ResultArgs`).
- The error checks are inconsistent:
  - `defer` checks the error by truthiness (`!error`), line 52;
  - callbacks check it with `!= null`, lines 31-32.

  So a falsy error such as `0` or `""` fails the queue and yet lets `defer` go on appending tasks. The model treats an error as simply present or absent, and does not reproduce this.

## Left out

- Everything in both files after the `queue` function is left out. That covers the UMD export, `queue.version`, and the `d3.csv`/crossfilter/dc chart set-up, which is rendering configuration over libraries not shown. `gulpfile.js` is left out too: it is a build pipeline.
- Calling a task (`t[0].apply(null, a)`) and forwarding `arguments` with `slice.call` are not modelled. A task is the opaque `args` value, and starting it is the `Invoke` effect. What the task does is later events.
- The returned object `q` and chaining are not modelled. Each operation returns the next state, which is how a pure model chains.
- JavaScript's `NaN` and `Infinity` are not modelled. Failure is `error.Some?` and unbounded is `parallelism == 0`. Negative or fractional `parallelism` is not modelled.
- An error value is present or absent. Falsy non-null errors, and the `!error` versus `!= null` difference they expose, are not modelled (see above).
- The payload arrays are not modelled as aliased. `awaitAll` hands the handler the `tasks` array itself, so a handler that mutates it would mutate the queue; the model passes a value.
- A callback called twice, or before its task started, is undefined behaviour by the queue's own contract and is excluded by the preconditions.
- All operations except `Empty` require `Valid`, the invariant of every state the operations reach. States built by hand outside the operations are not covered.
- `Traces` lets a loop head happen at any point. This over-approximates the places where a pass of `pop` can resume. It makes the run results sound for every nesting, but a few runs it admits cannot happen.
- Exceptions are not modelled. In the source, a task invocation (`t[0].apply`, line 24) that throws aborts the pass with `popping` still true. So does a handler that throws when it was called inside a pass, that is, when the last task called back synchronously. After such a throw, later callbacks start nothing until the next `defer` calls `pop()`. A handler called while no pass is running throws with `popping` false, and leaves the queue as the model has it. The model assumes nothing throws. So the "nothing startable" promises of `Pop`, `Defer`, `Reschedule`, `Succeed` and `Complete` hold only without exceptions. Runs in `Traces` still cover an aborted pass, because a run may leave out loop heads.
- TaskQueue.Notify: its contract states only that it calls at most once and starts nothing. The payload shapes are stated where notifications happen, in `Fail`, `Succeed`, `Await` and `AwaitAll`.

=== FILE: counting.dfy ===
/**
 Counting the elements of a sequence that satisfy a predicate, with the
 facts the queue model needs when one element is appended or replaced.
 */
module Counting {

  /** Number of elements of `s` that satisfy `p`. */
  function Count<T>(s: seq<T>, p: T -> bool): (n: nat)
    ensures n <= |s|
    ensures n == 0 <==> forall j :: 0 <= j < |s| ==> !p(s[j])
  {
    if s == [] then 0
    else Count(s[..|s| - 1], p) + (if p(s[|s| - 1]) then 1 else 0)
  }

  /** Appending one element adds one to the count exactly when it satisfies `p`. */
  lemma CountAppend<T>(s: seq<T>, x: T, p: T -> bool)
    ensures Count(s + [x], p) == Count(s, p) + (if p(x) then 1 else 0)
  {
    assert (s + [x])[..|s|] == s;
  }

  /** Replacing element `i` changes the count by what the old and new elements contribute. */
  lemma {:induction false} CountUpdate<T>(s: seq<T>, i: nat, x: T, p: T -> bool)
    requires i < |s|
    ensures Count(s[i := x], p)
            == Count(s, p) - (if p(s[i]) then 1 else 0) + (if p(x) then 1 else 0)
    decreases |s|
  {
    var t := s[i := x];
    var last := |s| - 1;
    if i == last {
      assert t[..last] == s[..last];
    } else {
      assert t[..last] == s[..last][i := x];
      assert t[last] == s[last];
      CountUpdate(s[..last], i, x, p);
    }
  }
}

=== FILE: passes.dfy ===
/**
 The operations of `TaskQueue` run each pass of `pop` to its end in one go,
 which is what happens when no task calls its callback from inside its own
 invocation and no task or handler throws. Each of them is one particular run
 of the fine-grained events of `Traces`, so everything proved about runs holds
 of them too.
 */
module Passes {
  import opened TaskQueue
  import opened Traces

  /** Running `e` as the first event and then `rest` is `e`'s step followed by the run of `rest`. */
  lemma RunCons<A, V, E, H>(q: Queue<A, V, E, H>, e: Event<A, V, E, H>, rest: seq<Event<A, V, E, H>>)
    requires Valid(q) && Admissible(q, e)
    ensures var s := Apply(q, e);
            Run(q, [e] + rest) ==
              match Run(s.queue, rest)
              case None => None
              case Some(t) => Some(Step(t.queue, s.effects + t.effects))
  {
    assert ([e] + rest)[0] == e;
    assert ([e] + rest)[1..] == rest;
  }

  /** `evs` is made of loop heads only. */
  predicate AllLoopHeads<A, V, E, H>(evs: seq<Event<A, V, E, H>>)
  {
    forall k :: 0 <= k < |evs| ==> evs[k].LoopHead?
  }

  /**
   A whole pass of `pop` is as many loop heads as it starts tasks, plus the
   final one that finds the loop condition false.
   */
  lemma {:induction false} PassIsLoopHeads<A, V, E, H>(q: Queue<A, V, E, H>, evs: seq<Event<A, V, E, H>>)
    requires Valid(q) && AllLoopHeads(evs)
    requires |evs| == Pop(q).queue.started - q.started + 1
    ensures Run(q, evs) == Some(Pop(q))
    decreases |evs|
  {
    var s := Resume(q);
    PopUnfolds(q);
    if s.queue.popping {
      PassIsLoopHeads(s.queue, evs[1..]);
      PassContinues(q, evs);
    } else {
      PassEnds(q, evs);
    }
  }

  /** A pass whose first loop head starts a task goes on as the pass that begins after it. */
  lemma PassContinues<A, V, E, H>(q: Queue<A, V, E, H>, evs: seq<Event<A, V, E, H>>)
    requires Valid(q) && |evs| > 0 && evs[0].LoopHead?
    requires Run(Resume(q).queue, evs[1..]) == Some(Pop(Resume(q).queue))
    ensures Run(q, evs) == Some(Step(Pop(Resume(q).queue).queue, Resume(q).effects + Pop(Resume(q).queue).effects))
  {
    ApplyLoopHead(q);
  }

  /** A pass whose first loop head finds the condition false is that one loop head. */
  lemma PassEnds<A, V, E, H>(q: Queue<A, V, E, H>, evs: seq<Event<A, V, E, H>>)
    requires Valid(q) && |evs| == 1 && evs[0].LoopHead?
    ensures Run(q, evs) == Some(Resume(q))
  {
    var s := Resume(q);
    assert |evs[1..]| == 0;
    ApplyLoopHead(q);
    RunNil(s.queue);
    assert s.effects + [] == s.effects;
  }

  lemma PopUnfolds<A, V, E, H>(q: Queue<A, V, E, H>)
    requires Valid(q)
    ensures var s := Resume(q);
            Pop(q) == if s.queue.popping then Step(Pop(s.queue).queue, s.effects + Pop(s.queue).effects) else s
  {
  }

  lemma ApplyLoopHead<A, V, E, H>(q: Queue<A, V, E, H>)
    requires Valid(q)
    ensures Apply(q, LoopHead) == Resume(q)
  {
  }

  lemma RunNil<A, V, E, H>(q: Queue<A, V, E, H>)
    requires Valid(q)
    ensures Run<A, V, E, H>(q, []) == Some(Step(q, []))
  {
  }

  /** `defer`, with every task its pass starts returning before calling back. */
  lemma DeferIsARun<A, V, E, H>(q: Queue<A, V, E, H>, args: A, evs: seq<Event<A, V, E, H>>)
    requires Valid(q) && AllLoopHeads(evs)
    requires |evs| == if q.Failed() then 0 else Defer(q, args).queue.started - q.started
    ensures Run(q, [DeferCall(args)] + evs) == Some(Defer(q, args))
  {
    RunCons(q, DeferCall(args), evs);
    if q.Failed() {
      RunNil(q);
      var none: seq<Effect<A, V, E, H>> := [];
      assert none + none == none;
    } else {
      var e := Enqueue(q, args);
      FinishPass(e, evs);
    }
  }

  /**
   The pass of `pop` begun by a `defer` or a callback, of which the event itself
   ran the first loop head: the loop heads left make up the rest of it.
   */
  lemma FinishPass<A, V, E, H>(q: Queue<A, V, E, H>, evs: seq<Event<A, V, E, H>>)
    requires Valid(q) && AllLoopHeads(evs)
    requires |evs| == Pop(q).queue.started - q.started
    ensures var s := Resume(q);
            Run(s.queue, evs) == Some(Step(Pop(q).queue, Pop(q).effects[|s.effects|..]))
            && Pop(q).effects == s.effects + Pop(q).effects[|s.effects|..]
  {
    var s := Resume(q);
    PopUnfolds(q);
    if s.queue.popping {
      PassIsLoopHeads(s.queue, evs);
      var t := Pop(s.queue);
      assert (s.effects + t.effects)[|s.effects|..] == t.effects;
    } else {
      RunNil(s.queue);
      assert s.effects[|s.effects|..] == [];
    }
  }

  /** `callback(i)`, with every task the callback's own pass starts returning before calling back. */
  lemma CompleteIsARun<A, V, E, H>(q: Queue<A, V, E, H>, i: nat, o: Outcome<V, E>, evs: seq<Event<A, V, E, H>>)
    requires Valid(q) && i < |q.tasks| && q.tasks[i].Running? && AllLoopHeads(evs)
    requires |evs| == if !q.Failed() && o.Ok? && q.remaining > 1 && !q.popping
                      then Complete(q, i, o).queue.started - q.started else 0
    ensures Run(q, [Callback(i, o)] + evs) == Some(Complete(q, i, o))
  {
    RunCons(q, Callback(i, o), evs);
    if !q.Failed() && o.Ok? && q.remaining > 1 && !q.popping {
      var q2 := Store(q, i, o.value);
      FinishPass(q2, evs);
    } else {
      var s := Apply(q, Callback(i, o));
      CallbackIsComplete(q, i, o);
      RunNil(s.queue);
      assert s.effects + [] == s.effects;
    }
  }

  lemma CallbackIsComplete<A, V, E, H>(q: Queue<A, V, E, H>, i: nat, o: Outcome<V, E>)
    requires Valid(q) && i < |q.tasks| && q.tasks[i].Running?
    requires q.Failed() || o.Err? || q.remaining <= 1 || q.popping
    ensures Apply(q, Callback(i, o)) == Complete(q, i, o)
  {
  }
}

=== FILE: queue.dfy ===
/**
 The asynchronous task queue of d3-queue 1.0.7, as an immutable state record
 with one pure transition per thing that can happen to it: a task is deferred,
 a task's callback is called, a completion handler is registered, or the
 scheduling loop `pop` evaluates its loop head once more.

 Running a task is not modelled: starting task `i` is the effect `Invoke(i, args)`.
 Whatever the task does afterwards, synchronously inside that invocation or
 later, is a further event of its own. Calling the registered handler is the
 effect `Call(handler, payload)`.
 */
module TaskQueue {
  import opened Counting

  datatype Option<T> = None | Some(value: T)

  /** What a task reports through its callback: `callback(null, r)` or `callback(e)` with `e` not null. */
  datatype Outcome<V, E> = Ok(value: V) | Err(error: E)

  /**
   One slot of the `tasks` array. The queue stores a task's deferred arguments
   in its slot and overwrites the slot with the task's result on success; the
   three argument-holding states differ only in where the task is in its life.
   */
  datatype Entry<A, V> =
    | Queued(args: A)     // deferred, not yet started
    | Running(args: A)    // started, its callback not yet called
    | Discarded(args: A)  // its callback reported an error, or came after the queue failed
    | Done(value: V)      // its callback reported a result, stored in its own slot

  predicate IsRunning<A, V>(e: Entry<A, V>) { e.Running? }

  /** Deferred and not yet successfully finished: what `remaining` counts. */
  predicate IsPending<A, V>(e: Entry<A, V>) { e.Queued? || e.Running? }

  predicate AllDone<A, V>(es: seq<Entry<A, V>>) {
    forall j :: 0 <= j < |es| ==> es[j].Done?
  }

  /**
   Every handler call among `effs` that carries results carries exactly the
   slots `ts`, each of which holds a result.
   */
  ghost predicate ResultsFrom<A, V, E, H>(effs: seq<Effect<A, V, E, H>>, ts: seq<Entry<A, V>>) {
    forall k :: 0 <= k < |effs| && effs[k].Call? && !effs[k].payload.ErrorOnly? ==>
      effs[k].payload.results == ts && AllDone(ts)
  }

  /**
   `after` keeps every result of `before` in place, and the only slot that can
   have gained a result is `i`, holding `gained`.
   */
  ghost predicate KeepsResults<A, V>(before: seq<Entry<A, V>>, after: seq<Entry<A, V>>, i: nat, gained: Option<V>) {
    && |after| == |before|
    && (forall j :: 0 <= j < |before| && before[j].Done? ==> after[j] == before[j])
    && (forall j :: 0 <= j < |before| && after[j].Done? ==>
          after[j] == before[j] || (j == i && gained == Some(after[j].value)))
  }

  /** The registered handler and whether it was registered by `awaitAll`. */
  datatype Awaiter<H> = Awaiter(handler: H, all: bool)

  /** The arguments the handler is called with. */
  datatype Payload<A, V, E> =
    | ErrorOnly(error: E)                      // await(error)
    | ResultArray(results: seq<Entry<A, V>>)   // await(null, tasks), from awaitAll
    | ResultArgs(results: seq<Entry<A, V>>)    // await(null, tasks[0], tasks[1], ...), from await

  datatype Effect<A, V, E, H> =
    | Invoke(index: nat, args: A)           // the task in slot `index` is started with its arguments
    | Call(handler: H, payload: Payload<A, V, E>)

  /**
   The closure state of one queue. `parallelism` 0 stands for the unbounded
   queue that a falsy argument gives. A failed queue is one whose `error` is
   set; in that state `started` and `remaining` no longer matter.
   */
  datatype Queue<A, V, E, H> = Queue(
    parallelism: nat,
    tasks: seq<Entry<A, V>>,
    started: nat,
    active: nat,
    remaining: nat,
    popping: bool,
    error: Option<E>,
    awaiter: Option<Awaiter<H>>)
  {
    predicate Failed() { error.Some? }

    predicate HasSlot() { parallelism == 0 || active < parallelism }

    /** The loop condition of `pop`. */
    predicate CanStart() { !Failed() && started < |tasks| && HasSlot() }

    /** `!remaining`: nothing is left to wait for, or the queue has failed. */
    predicate Settled() { Failed() || remaining == 0 }
  }

  datatype Step<A, V, E, H> = Step(queue: Queue<A, V, E, H>, effects: seq<Effect<A, V, E, H>>)

  /**
   The invariant every state reachable through the queue's operations keeps:
   tasks are started in slot order, `active` counts the running tasks and
   respects the bound, and until the first error `remaining` counts the tasks
   that have not yet finished successfully.
   */
  predicate Valid<A, V, E, H>(q: Queue<A, V, E, H>) {
    && q.started <= |q.tasks|
    && (forall j :: 0 <= j < |q.tasks| ==> (j < q.started <==> !q.tasks[j].Queued?))
    && q.active == Count(q.tasks, IsRunning)
    && (q.parallelism == 0 || q.active <= q.parallelism)
    && (!q.Failed() ==>
          && (forall j :: 0 <= j < |q.tasks| ==> !q.tasks[j].Discarded?)
          && q.remaining == Count(q.tasks, IsPending))
  }

  /** `queue(parallelism)`: an empty queue with the noop handler. */
  function Empty<A, V, E, H>(parallelism: nat): (q: Queue<A, V, E, H>)
    ensures Valid(q)
    ensures q.parallelism == parallelism && q.tasks == [] && q.awaiter.None?
    ensures q.Settled() && !q.Failed() && !q.CanStart()
  {
    Queue(parallelism, [], 0, 0, 0, false, None, None)
  }

  /** In a valid queue that has not failed and has nothing remaining, every slot holds a result. */
  lemma SettledHoldsResults<A, V, E, H>(q: Queue<A, V, E, H>)
    requires Valid(q)
    ensures !q.Failed() && q.remaining == 0 ==> AllDone(q.tasks)
  {
    if !q.Failed() && q.remaining == 0 {
      forall j | 0 <= j < |q.tasks|
        ensures q.tasks[j].Done?
      {
        assert !IsPending(q.tasks[j]);
      }
    }
  }

  /** `notify`: what calling the registered handler looks like (nothing for the initial noop). */
  function Notify<A, V, E, H>(q: Queue<A, V, E, H>): (out: seq<Effect<A, V, E, H>>)
    ensures |out| <= 1 && Invoked(out) == []
  {
    match q.awaiter
    case None => []
    case Some(w) =>
      if q.Failed() then [Call(w.handler, ErrorOnly(q.error.value))]
      else if w.all then [Call(w.handler, ResultArray(q.tasks))]
      else [Call(w.handler, ResultArgs(q.tasks))]
  }

  /** A notification is made of handler calls only. */
  lemma CallsOfNotify<A, V, E, H>(q: Queue<A, V, E, H>)
    ensures Calls(Notify(q)) == Notify(q)
  {
    var n := Notify(q);
    if n != [] {
      assert n[1..] == [];
    }
  }

  /** The slots of the tasks `effs` starts, in the order it starts them. */
  function Invoked<A, V, E, H>(effs: seq<Effect<A, V, E, H>>): seq<nat>
  {
    if effs == [] then []
    else (if effs[0].Invoke? then [effs[0].index] else []) + Invoked(effs[1..])
  }

  /** The handler calls among `effs`, in order. */
  function Calls<A, V, E, H>(effs: seq<Effect<A, V, E, H>>): seq<Effect<A, V, E, H>>
  {
    if effs == [] then []
    else (if effs[0].Call? then [effs[0]] else []) + Calls(effs[1..])
  }

  /** The slots `lo` to `hi - 1` in increasing order. */
  function Range(lo: nat, hi: nat): (r: seq<nat>)
    requires lo <= hi
    ensures |r| == hi - lo
    ensures forall k :: 0 <= k < |r| ==> r[k] == lo + k
  {
    seq(hi - lo, k => lo + k)
  }

  lemma {:induction false} InvokedConcat<A, V, E, H>(a: seq<Effect<A, V, E, H>>, b: seq<Effect<A, V, E, H>>)
    ensures Invoked(a + b) == Invoked(a) + Invoked(b)
    decreases |a|
  {
    if a != [] {
      assert (a + b)[0] == a[0];
      assert (a + b)[1..] == a[1..] + b;
      InvokedConcat(a[1..], b);
    } else {
      assert a + b == b;
    }
  }

  lemma {:induction false} CallsConcat<A, V, E, H>(a: seq<Effect<A, V, E, H>>, b: seq<Effect<A, V, E, H>>)
    ensures Calls(a + b) == Calls(a) + Calls(b)
    decreases |a|
  {
    if a != [] {
      assert (a + b)[0] == a[0];
      assert (a + b)[1..] == a[1..] + b;
      CallsConcat(a[1..], b);
    } else {
      assert a + b == b;
    }
  }

  lemma RangeConcat(lo: nat, mid: nat, hi: nat)
    requires lo <= mid <= hi
    ensures Range(lo, mid) + Range(mid, hi) == Range(lo, hi)
  {
  }

  /** `after` is `before` with exactly the slots `lo` to `hi - 1`, all queued, now running. */
  ghost predicate StartsRange<A, V>(before: seq<Entry<A, V>>, after: seq<Entry<A, V>>, lo: nat, hi: nat) {
    && lo <= hi <= |before| == |after|
    && (forall j :: lo <= j < hi ==> before[j].Queued? && after[j] == Running(before[j].args))
    && (forall j :: 0 <= j < |before| && !(lo <= j < hi) ==> after[j] == before[j])
  }

  /** `effs` invokes the tasks of slots `lo` to `hi - 1`, in slot order, each with its own arguments. */
  ghost predicate InvokesRange<A, V, E, H>(effs: seq<Effect<A, V, E, H>>, ts: seq<Entry<A, V>>, lo: nat, hi: nat) {
    && lo <= hi <= |ts|
    && |effs| == hi - lo
    && (forall j :: lo <= j < hi ==> ts[j].Queued? && effs[j - lo] == Invoke(j, ts[j].args))
  }

  lemma {:induction false} InvokesRangeInvoked<A, V, E, H>(effs: seq<Effect<A, V, E, H>>, ts: seq<Entry<A, V>>, lo: nat, hi: nat)
    requires InvokesRange(effs, ts, lo, hi)
    ensures Invoked(effs) == Range(lo, hi) && Calls(effs) == []
    ensures forall k :: 0 <= k < |effs| ==> effs[k].Invoke?
    decreases |effs|
  {
    if effs != [] {
      forall j | lo + 1 <= j < hi
        ensures ts[j].Queued? && effs[1..][j - (lo + 1)] == Invoke(j, ts[j].args)
      {
        assert effs[1..][j - (lo + 1)] == effs[j - lo];
      }
      InvokesRangeInvoked(effs[1..], ts, lo + 1, hi);
      assert effs[0] == Invoke(lo, ts[lo].args);
      assert Invoked(effs) == [lo] + Range(lo + 1, hi);
    }
  }

  lemma StartsRangeCompose<A, V>(t0: seq<Entry<A, V>>, t1: seq<Entry<A, V>>, t2: seq<Entry<A, V>>, lo: nat, hi: nat)
    requires StartsRange(t0, t1, lo, lo + 1) && StartsRange(t1, t2, lo + 1, hi)
    ensures StartsRange(t0, t2, lo, hi)
  {
  }

  lemma InvokesRangeCompose<A, V, E, H>(e1: seq<Effect<A, V, E, H>>, e2: seq<Effect<A, V, E, H>>,
                                        t0: seq<Entry<A, V>>, t1: seq<Entry<A, V>>, lo: nat, hi: nat)
    requires StartsRange(t0, t1, lo, lo + 1)
    requires InvokesRange(e1, t0, lo, lo + 1) && InvokesRange(e2, t1, lo + 1, hi)
    ensures InvokesRange(e1 + e2, t0, lo, hi)
  {
    forall j | lo <= j < hi
      ensures t0[j].Queued? && (e1 + e2)[j - lo] == Invoke(j, t0[j].args)
    {
      if j > lo {
        assert (e1 + e2)[j - lo] == e2[j - (lo + 1)];
        assert t1[j] == t0[j];
      }
    }
  }

  /**
   One evaluation of the loop head of `pop` (`popping = started < tasks.length
   && active < parallelism`) and, when it holds, the start of task `started`.
   The source returns into the loop head after each task invocation, so a pass
   of `pop` is this step repeated; anything the invoked task does in between is
   a separate event.
   */
  function Resume<A, V, E, H>(q: Queue<A, V, E, H>): (r: Step<A, V, E, H>)
    requires Valid(q)
    ensures Valid(r.queue)
    ensures r.queue.popping == q.CanStart()
    ensures r.queue.started == q.started + (if q.CanStart() then 1 else 0)
    ensures r.queue.active == q.active + (r.queue.started - q.started)
    ensures StartsRange(q.tasks, r.queue.tasks, q.started, r.queue.started)
    ensures InvokesRange(r.effects, q.tasks, q.started, r.queue.started)
    ensures r.queue == q.(tasks := r.queue.tasks, started := r.queue.started, active := r.queue.active,
                          popping := r.queue.popping)
  {
    if q.CanStart() then
      var i := q.started;
      var ts := q.tasks[i := Running(q.tasks[i].args)];
      CountUpdate(q.tasks, i, Running(q.tasks[i].args), IsRunning);
      CountUpdate(q.tasks, i, Running(q.tasks[i].args), IsPending);
      Step(q.(tasks := ts, started := i + 1, active := q.active + 1, popping := true),
           [Invoke(i, q.tasks[i].args)])
    else
      Step(q.(popping := false), [])
  }

  /** A pass of `pop` is one loop-head step followed by the rest of the pass. */
  lemma PopCompose<A, V, E, H>(q: Queue<A, V, E, H>, s: Step<A, V, E, H>, rest: Step<A, V, E, H>)
    requires Valid(q)
    requires s == Resume(q) && s.queue.popping
    requires StartsRange(s.queue.tasks, rest.queue.tasks, s.queue.started, rest.queue.started)
    requires InvokesRange(rest.effects, s.queue.tasks, s.queue.started, rest.queue.started)
    requires rest.queue.active == s.queue.active + (rest.queue.started - s.queue.started)
    ensures StartsRange(q.tasks, rest.queue.tasks, q.started, rest.queue.started)
    ensures InvokesRange(s.effects + rest.effects, q.tasks, q.started, rest.queue.started)
    ensures rest.queue.active == q.active + (rest.queue.started - q.started)
  {
    StartsRangeCompose(q.tasks, s.queue.tasks, rest.queue.tasks, q.started, rest.queue.started);
    InvokesRangeCompose(s.effects, rest.effects, q.tasks, s.queue.tasks, q.started, rest.queue.started);
  }

  /**
   A whole pass of `pop`: tasks are started in slot order, beginning at
   `started`, until none is left, the bound is reached or the queue has failed.
   */
  function Pop<A, V, E, H>(q: Queue<A, V, E, H>): (r: Step<A, V, E, H>)
    requires Valid(q)
    ensures Valid(r.queue)
    ensures !r.queue.CanStart() && !r.queue.popping
    ensures StartsRange(q.tasks, r.queue.tasks, q.started, r.queue.started)
    ensures InvokesRange(r.effects, q.tasks, q.started, r.queue.started)
    ensures r.queue.active == q.active + (r.queue.started - q.started)
    ensures r.queue == q.(tasks := r.queue.tasks, started := r.queue.started, active := r.queue.active, popping := false)
    decreases |q.tasks| - q.started
  {
    var s := Resume(q);
    if s.queue.popping then
      var rest := Pop(s.queue);
      PopCompose(q, s, rest);
      Step(rest.queue, s.effects + rest.effects)
    else
      s
  }

  /** `defer`: ignored once the queue has failed; otherwise the task gets the next slot and `pop` runs. */
  function Defer<A, V, E, H>(q: Queue<A, V, E, H>, args: A): (r: Step<A, V, E, H>)
    requires Valid(q)
    ensures Valid(r.queue)
    ensures q.Failed() ==> r == Step(q, [])
    ensures !q.Failed() ==>
              && r.queue.remaining == q.remaining + 1
              && !r.queue.CanStart()
              && StartsRange(q.tasks + [Queued(args)], r.queue.tasks, q.started, r.queue.started)
              && InvokesRange(r.effects, q.tasks + [Queued(args)], q.started, r.queue.started)
              // the bound, the error and the handler stay as they were
              && r.queue == q.(tasks := r.queue.tasks, started := r.queue.started, active := r.queue.active,
                               remaining := r.queue.remaining, popping := false)
  {
    if q.Failed() then Step(q, []) else Pop(Enqueue(q, args))
  }

  /** The bookkeeping of `defer`: `tasks.push(arguments)`, `++remaining`. */
  function Enqueue<A, V, E, H>(q: Queue<A, V, E, H>, args: A): (q2: Queue<A, V, E, H>)
    requires Valid(q) && !q.Failed()
    ensures Valid(q2) && q2.remaining == q.remaining + 1
    ensures q2 == q.(tasks := q.tasks + [Queued(args)], remaining := q2.remaining)
  {
    CountAppend(q.tasks, Queued(args), IsRunning);
    CountAppend(q.tasks, Queued(args), IsPending);
    q.(tasks := q.tasks + [Queued(args)], remaining := q.remaining + 1)
  }

  /**
   `callback(i)` called with outcome `o`. The source asks each task to call its
   callback exactly once, after it was started: task `i` is running. The first
   error is kept for good; every later outcome leaves it as it is.
   */
  function Complete<A, V, E, H>(q: Queue<A, V, E, H>, i: nat, o: Outcome<V, E>): (r: Step<A, V, E, H>)
    requires Valid(q)
    requires i < |q.tasks| && q.tasks[i].Running?
    ensures Valid(r.queue)
    ensures |r.queue.tasks| == |q.tasks| && r.queue.awaiter == q.awaiter && r.queue.parallelism == q.parallelism
    ensures r.queue.error == if q.Failed() || o.Ok? then q.error else Some(o.error)
    ensures q.Failed() ==> r.queue.started == q.started && r.effects == []
    ensures q.started <= r.queue.started && Invoked(r.effects) == Range(q.started, r.queue.started)
    // a finished slot never changes, and the only slot that can become finished is `i`, with `o`'s result
    ensures KeepsResults(q.tasks, r.queue.tasks, i, if o.Ok? then Some(o.value) else None)
    ensures ResultsFrom(r.effects, r.queue.tasks)
    // a result is stored in slot `i`, and the handler is called exactly when it was the last one
    ensures !q.Failed() && o.Ok? ==>
              && r.queue.tasks[i] == Done(o.value) && r.queue.remaining == q.remaining - 1
              && (Calls(r.effects) != [] <==> q.remaining == 1 && q.awaiter.Some?)
    // the first error notifies at once and starts nothing
    ensures !q.Failed() && o.Err? ==> r.queue.started == q.started && r.effects == Notify(r.queue)
    // the last result notifies once, with what the queue then holds
    ensures !q.Failed() && o.Ok? && q.remaining == 1 ==> r.effects == Notify(r.queue)
    // a result that is not the last one: `popping || pop()`
    ensures !q.Failed() && o.Ok? && q.remaining > 1 ==>
              && (q.popping ==> r.queue.started == q.started && r.effects == [] && r.queue.popping)
              && (!q.popping ==> !r.queue.CanStart() && !r.queue.popping)
  {
    if q.Failed() then Squelch(q, i)
    else
      match o
      case Err(e) => Fail(q, i, e)
      case Ok(v) => Succeed(q, i, v)
  }

  /** A callback after the first error: `--active`, then return; the slot keeps its arguments. */
  function Squelch<A, V, E, H>(q: Queue<A, V, E, H>, i: nat): (r: Step<A, V, E, H>)
    requires Valid(q) && q.Failed()
    requires i < |q.tasks| && q.tasks[i].Running?
    ensures Valid(r.queue)
    ensures r.effects == []
    ensures r.queue.active == q.active - 1
    ensures r.queue == q.(tasks := q.tasks[i := Discarded(q.tasks[i].args)], active := r.queue.active)
    ensures KeepsResults(q.tasks, r.queue.tasks, i, None)
  {
    var args := q.tasks[i].args;
    CountUpdate(q.tasks, i, Discarded(args), IsRunning);
    Step(q.(tasks := q.tasks[i := Discarded(args)], active := q.active - 1), [])
  }

  /**
   The first error: it is recorded, no task starts any more, and the handler
   (if one is registered) is called with the error alone.
   */
  function Fail<A, V, E, H>(q: Queue<A, V, E, H>, i: nat, e: E): (r: Step<A, V, E, H>)
    requires Valid(q) && !q.Failed()
    requires i < |q.tasks| && q.tasks[i].Running?
    ensures Valid(r.queue)
    ensures r.queue.error == Some(e) && r.queue.Settled() && !r.queue.CanStart()
    ensures r.queue.active == q.active - 1
    ensures r.queue == q.(tasks := q.tasks[i := Discarded(q.tasks[i].args)], active := r.queue.active, error := Some(e))
    ensures r.effects == if q.awaiter.Some? then [Call(q.awaiter.value.handler, ErrorOnly(e))] else []
    ensures Calls(r.effects) == r.effects == Notify(r.queue)
    ensures KeepsResults(q.tasks, r.queue.tasks, i, None)
  {
    var args := q.tasks[i].args;
    CountUpdate(q.tasks, i, Discarded(args), IsRunning);
    var q2 := q.(tasks := q.tasks[i := Discarded(args)], active := q.active - 1, error := Some(e));
    CallsOfNotify(q2);
    Step(q2, Notify(q2))
  }

  /**
   A result: it is stored in slot `i` and nowhere else; then the handler is
   called if nothing remains, and otherwise `pop` runs unless a pass of it is
   already under way further up the call stack.
   */
  function Succeed<A, V, E, H>(q: Queue<A, V, E, H>, i: nat, v: V): (r: Step<A, V, E, H>)
    requires Valid(q) && !q.Failed()
    requires i < |q.tasks| && q.tasks[i].Running?
    ensures Valid(r.queue)
    ensures !r.queue.Failed() && r.queue.remaining == q.remaining - 1
    ensures StartsRange(q.tasks[i := Done(v)], r.queue.tasks, q.started, r.queue.started)
    ensures q.started <= r.queue.started && Invoked(r.effects) == Range(q.started, r.queue.started)
    ensures ResultsFrom(r.effects, r.queue.tasks)
    ensures KeepsResults(q.tasks, r.queue.tasks, i, Some(v))
    ensures r.queue.awaiter == q.awaiter && r.queue.parallelism == q.parallelism
    // the handler is called exactly when this was the last remaining task, with every slot holding its result
    ensures Calls(r.effects) != [] <==> q.remaining == 1 && q.awaiter.Some?
    ensures q.remaining == 1 ==> AllDone(r.queue.tasks) && r.queue.started == q.started && r.effects == Notify(r.queue)
    ensures r.queue.tasks[i] == Done(v)
    ensures Calls(r.effects) == if r.queue.Settled() then Notify(r.queue) else []
    // otherwise tasks are started only when no pass of `pop` is under way, and then as many as the bound allows
    ensures q.remaining > 1 && q.popping ==> r.queue.started == q.started && r.effects == [] && r.queue.popping
    ensures q.remaining > 1 && !q.popping ==> !r.queue.CanStart() && !r.queue.popping
  {
    var q2 := Store(q, i, v);
    if q2.remaining != 0 then
      var r := Reschedule(q2);
      StartsRangeKeepsResults(q.tasks, q2.tasks, r.queue.tasks, i, v, q.started, r.queue.started);
      assert r.queue.tasks[i] == q2.tasks[i];
      r
    else
      StartsRangeKeepsResults(q.tasks, q2.tasks, q2.tasks, i, v, q.started, q.started);
      CallsOfNotify(q2);
      Step(q2, Notify(q2))
  }

  /** `popping || pop()`: a pass of `pop` runs unless one is already under way. */
  function Reschedule<A, V, E, H>(q: Queue<A, V, E, H>): (r: Step<A, V, E, H>)
    requires Valid(q)
    ensures Valid(r.queue)
    ensures q.popping ==> r == Step(q, [])
    ensures !q.popping ==> !r.queue.CanStart() && !r.queue.popping
    ensures StartsRange(q.tasks, r.queue.tasks, q.started, r.queue.started)
    ensures q.started <= r.queue.started && Invoked(r.effects) == Range(q.started, r.queue.started)
    ensures Calls(r.effects) == [] && ResultsFrom(r.effects, r.queue.tasks)
    ensures r.queue == q.(tasks := r.queue.tasks, started := r.queue.started, active := r.queue.active,
                          popping := r.queue.popping)
  {
    if q.popping then Step(q, [])
    else
      var r := Pop(q);
      InvokesRangeInvoked(r.effects, q.tasks, q.started, r.queue.started);
      r
  }

  lemma StartsRangeKeepsResults<A, V>(t0: seq<Entry<A, V>>, t1: seq<Entry<A, V>>, t2: seq<Entry<A, V>>,
                                      i: nat, v: V, lo: nat, hi: nat)
    requires i < |t0| && t0[i].Running? && t1 == t0[i := Done(v)]
    requires StartsRange(t1, t2, lo, hi)
    ensures KeepsResults(t0, t2, i, Some(v))
  {
  }

  /** The bookkeeping of a result: `--active`, `tasks[i] = r`, `--remaining`. */
  function Store<A, V, E, H>(q: Queue<A, V, E, H>, i: nat, v: V): (q2: Queue<A, V, E, H>)
    requires Valid(q) && !q.Failed()
    requires i < |q.tasks| && q.tasks[i].Running?
    ensures Valid(q2) && q.remaining == q2.remaining + 1
    ensures q2 == q.(tasks := q.tasks[i := Done(v)], active := q2.active, remaining := q2.remaining)
    ensures q2.remaining == 0 ==> AllDone(q2.tasks)
  {
    CountUpdate(q.tasks, i, Done(v), IsRunning);
    CountUpdate(q.tasks, i, Done(v), IsPending);
    var q2 := q.(tasks := q.tasks[i := Done(v)], active := q.active - 1, remaining := q.remaining - 1);
    SettledHoldsResults(q2);
    q2
  }

  /** The body shared by `await` and `awaitAll`: register, then notify at once if nothing remains. */
  function Register<A, V, E, H>(q: Queue<A, V, E, H>, f: H, all: bool): Step<A, V, E, H>
  {
    var q2 := q.(awaiter := Some(Awaiter(f, all)));
    Step(q2, if q2.Settled() then Notify(q2) else [])
  }

  /** `await(f)`: `f` is called with the error alone, or with null followed by each result. */
  function Await<A, V, E, H>(q: Queue<A, V, E, H>, f: H): (r: Step<A, V, E, H>)
    requires Valid(q)
    ensures Valid(r.queue)
    ensures r.queue == q.(awaiter := Some(Awaiter(f, false)))
    ensures r.effects != [] <==> q.Settled()
    ensures q.Failed() ==> r.effects == [Call(f, ErrorOnly(q.error.value))]
    ensures !q.Failed() && q.remaining == 0 ==>
              AllDone(q.tasks) && r.effects == [Call(f, ResultArgs(q.tasks))]
  {
    SettledHoldsResults(q);
    Register(q, f, false)
  }

  /** `awaitAll(f)`: `f` is called with the error alone, or with null and the array of results. */
  function AwaitAll<A, V, E, H>(q: Queue<A, V, E, H>, f: H): (r: Step<A, V, E, H>)
    requires Valid(q)
    ensures Valid(r.queue)
    ensures r.queue == q.(awaiter := Some(Awaiter(f, true)))
    ensures r.effects != [] <==> q.Settled()
    ensures q.Failed() ==> r.effects == [Call(f, ErrorOnly(q.error.value))]
    ensures !q.Failed() && q.remaining == 0 ==>
              AllDone(q.tasks) && r.effects == [Call(f, ResultArray(q.tasks))]
  {
    SettledHoldsResults(q);
    Register(q, f, true)
  }
}

=== FILE: scenarios.dfy ===
/**
 Small runs worked out in full: a queue of three tasks whose last task fails,
 and a handler that is called a second time because a task is deferred after
 everything had finished. The general facts they rest on (what `defer` does
 with a free slot and with a full queue, and what a result does when it frees
 the one slot the next task needs) come first.
 */
module Scenarios {
  import opened Counting
  import opened TaskQueue
  import opened Traces

  /** Tasks, results and handlers named by integers, errors by strings. */
  type Q = Queue<int, int, string, int>

  /** `defer` with a free slot and nothing waiting: the new task starts at once, in the next slot. */
  lemma DeferStartsAtOnce<A, V, E, H>(q: Queue<A, V, E, H>, args: A)
    requires Valid(q) && !q.Failed() && q.started == |q.tasks| && q.HasSlot()
    ensures Defer(q, args) ==
            Step(q.(tasks := q.tasks + [Running(args)], started := q.started + 1, active := q.active + 1,
                    remaining := q.remaining + 1, popping := false),
                 [Invoke(|q.tasks|, args)])
  {
    var e := Enqueue(q, args);
    var ts := q.tasks + [Running(args)];
    assert e.tasks[|q.tasks| := Running(args)] == ts;
    var s := Resume(e);
    assert s == Step(q.(tasks := ts, started := q.started + 1, active := q.active + 1,
                        remaining := q.remaining + 1, popping := true),
                     [Invoke(|q.tasks|, args)]);
    assert Pop(e) == Step(s.queue.(popping := false), s.effects) by {
      assert Resume(s.queue) == Step(s.queue.(popping := false), []);
      assert s.effects + [] == s.effects;
    }
  }

  /** `defer` when every slot is taken: the new task waits in the next slot. */
  lemma DeferWaits<A, V, E, H>(q: Queue<A, V, E, H>, args: A)
    requires Valid(q) && !q.Failed() && !q.HasSlot()
    ensures Defer(q, args) ==
            Step(q.(tasks := q.tasks + [Queued(args)], remaining := q.remaining + 1, popping := false), [])
  {
  }

  /**
   A result that frees the only slot, with a task waiting and no pass of `pop`
   under way: the result is stored and exactly the next waiting task starts.
   */
  lemma ResultStartsNext<A, V, E, H>(q: Queue<A, V, E, H>, i: nat, v: V)
    requires Valid(q) && !q.Failed() && i < |q.tasks| && q.tasks[i].Running?
    requires q.parallelism != 0 && q.active == q.parallelism && q.started < |q.tasks|
    requires !q.popping && q.remaining > 1
    ensures var next := q.started;
            Complete(q, i, Ok(v)) ==
            Step(q.(tasks := q.tasks[i := Done(v)][next := Running(q.tasks[next].args)], started := next + 1,
                    remaining := q.remaining - 1),
                 [Invoke(next, q.tasks[next].args)])
  {
    var next := q.started;
    var q2 := Store(q, i, v);
    var ts := q.tasks[i := Done(v)][next := Running(q.tasks[next].args)];
    var s := Resume(q2);
    assert s == Step(q.(tasks := ts, started := next + 1, remaining := q.remaining - 1, popping := true),
                     [Invoke(next, q.tasks[next].args)]);
    assert Pop(q2) == Step(s.queue.(popping := false), s.effects) by {
      assert Resume(s.queue) == Step(s.queue.(popping := false), []);
      assert s.effects + [] == s.effects;
    }
  }

  lemma CountOfThree<T>(x: T, y: T, z: T, p: T -> bool)
    ensures Count([x, y, z], p) == (if p(x) then 1 else 0) + (if p(y) then 1 else 0) + (if p(z) then 1 else 0)
  {
    CountAppend([], x, p);
    CountAppend([x], y, p);
    CountAppend([x, y], z, p);
    assert [] + [x] == [x] && [x] + [y] == [x, y] && [x, y] + [z] == [x, y, z];
  }

  /**
   With at most two tasks at a time, `a` and `b` start at once and `c` waits;
   then `b` reports a result, which frees a slot, and `c` starts.
   */
  lemma FreedSlotStartsWaitingTask(a: int, b: int, c: int)
    ensures var q1: Q := Queue(2, [Running(a)], 1, 1, 1, false, None, None);
            var q2: Q := Queue(2, [Running(a), Running(b)], 2, 2, 2, false, None, None);
            var q3: Q := Queue(2, [Running(a), Running(b), Queued(c)], 2, 2, 3, false, None, None);
            var q4: Q := Queue(2, [Running(a), Done(2), Running(c)], 3, 2, 2, false, None, None);
            && Defer(Empty<int, int, string, int>(2), a) == Step(q1, [Invoke(0, a)])
            && Defer(q1, b) == Step(q2, [Invoke(1, b)])
            && Defer(q2, c) == Step(q3, [])
            && Complete(q3, 1, Ok(2)) == Step(q4, [Invoke(2, c)])
  {
    StartFirst(a);
    StartSecond(a, b);
    ThirdWaits(a, b, c);
    SecondFreesSlot(a, b, c);
  }

  lemma StartFirst(a: int)
    ensures Defer(Empty<int, int, string, int>(2), a) == Step(Queue(2, [Running(a)], 1, 1, 1, false, None, None), [Invoke(0, a)])
  {
    var q0 := Empty<int, int, string, int>(2);
    DeferStartsAtOnce(q0, a);
    assert q0.tasks + [Running(a)] == [Running(a)];
  }

  lemma StartSecond(a: int, b: int)
    ensures var q1: Q := Queue(2, [Running(a)], 1, 1, 1, false, None, None);
            && Valid(q1)
            && Defer(q1, b) == Step(Queue(2, [Running(a), Running(b)], 2, 2, 2, false, None, None), [Invoke(1, b)])
  {
    var q1: Q := Queue(2, [Running(a)], 1, 1, 1, false, None, None);
    assert q1.tasks[..0] == [];
    DeferStartsAtOnce(q1, b);
  }

  lemma ThirdWaits(a: int, b: int, c: int)
    ensures var q2: Q := Queue(2, [Running(a), Running(b)], 2, 2, 2, false, None, None);
            && Valid(q2)
            && Defer(q2, c) == Step(Queue(2, [Running(a), Running(b), Queued(c)], 2, 2, 3, false, None, None), [])
  {
    var q2: Q := Queue(2, [Running(a), Running(b)], 2, 2, 2, false, None, None);
    assert q2.tasks[..1] == [Running(a)] && q2.tasks[..1][..0] == [];
    DeferWaits(q2, c);
  }

  lemma SecondFreesSlot(a: int, b: int, c: int)
    ensures var q3: Q := Queue(2, [Running(a), Running(b), Queued(c)], 2, 2, 3, false, None, None);
            && Valid(q3)
            && Complete(q3, 1, Ok(2)) == Step(Queue(2, [Running(a), Done(2), Running(c)], 3, 2, 2, false, None, None), [Invoke(2, c)])
  {
    var q3: Q := Queue(2, [Running(a), Running(b), Queued(c)], 2, 2, 3, false, None, None);
    CountOfThree(q3.tasks[0], q3.tasks[1], q3.tasks[2], IsRunning);
    CountOfThree(q3.tasks[0], q3.tasks[1], q3.tasks[2], IsPending);
    ResultStartsNext(q3, 1, 2);
    assert q3.tasks[1 := Done(2)][2 := Running(c)] == [Running(a), Done(2), Running(c)];
  }

  /**
   Continuing from there: the handler registered now is not called yet; `c`
   fails, and the handler is called with that error alone; `a`'s result, which
   comes last, is dropped and calls nothing.
   */
  lemma FirstFailureSettles(a: int, c: int, f: int)
    ensures var q4: Q := Queue(2, [Running(a), Done(2), Running(c)], 3, 2, 2, false, None, None);
            var w := Some(Awaiter(f, true));
            && Valid(q4)
            && AwaitAll(q4, f) == Step(q4.(awaiter := w), [])
            && Complete(q4.(awaiter := w), 2, Err("err"))
               == Step(Queue(2, [Running(a), Done(2), Discarded(c)], 3, 1, 2, false, Some("err"), w),
                       [Call(f, ErrorOnly("err"))])
            && Complete(Queue(2, [Running(a), Done(2), Discarded(c)], 3, 1, 2, false, Some("err"), w), 0, Ok(1))
               == Step(Queue(2, [Discarded(a), Done(2), Discarded(c)], 3, 0, 2, false, Some("err"), w), [])
  {
    var w := Some(Awaiter(f, true));
    var q5: Q := Queue(2, [Running(a), Done(2), Running(c)], 3, 2, 2, false, None, w);
    CountOfThree(q5.tasks[0], q5.tasks[1], q5.tasks[2], IsRunning);
    CountOfThree(q5.tasks[0], q5.tasks[1], q5.tasks[2], IsPending);
    assert q5.tasks[2 := Discarded(c)] == [Running(a), Done(2), Discarded(c)];
    var q6: Q := Queue(2, [Running(a), Done(2), Discarded(c)], 3, 1, 2, false, Some("err"), w);
    assert q6.tasks[0 := Discarded(a)] == [Discarded(a), Done(2), Discarded(c)];
  }

  /**
   The handler is not called only once: registered on an empty queue it is
   called at once with no results, and called again when a task deferred
   afterwards finishes.
   */
  lemma HandlerCalledAgain(f: int, a: int, v: int)
    ensures var q0 := Empty<int, int, string, int>(0);
            var q1 := AwaitAll(q0, f);
            && q1.effects == [Call(f, ResultArray([]))]
            && var q2 := Defer(q1.queue, a);
               && q2.effects == [Invoke(0, a)]
               && var q3 := Complete(q2.queue, 0, Ok(v));
                  && q3.effects == [Call(f, ResultArray([Done(v)]))]
  {
    AwaitOnEmpty(f);
    DeferAfterAwait(f, a);
    LastResultNotifiesAgain(f, a, v);
  }

  lemma AwaitOnEmpty(f: int)
    ensures AwaitAll(Empty<int, int, string, int>(0), f)
            == Step(Queue(0, [], 0, 0, 0, false, None, Some(Awaiter(f, true))), [Call(f, ResultArray([]))])
  {
  }

  lemma DeferAfterAwait(f: int, a: int)
    ensures var q1: Q := Queue(0, [], 0, 0, 0, false, None, Some(Awaiter(f, true)));
            Defer(q1, a) == Step(Queue(0, [Running(a)], 1, 1, 1, false, None, Some(Awaiter(f, true))), [Invoke(0, a)])
  {
    var q1: Q := Queue(0, [], 0, 0, 0, false, None, Some(Awaiter(f, true)));
    DeferStartsAtOnce(q1, a);
    assert q1.tasks + [Running(a)] == [Running(a)];
  }

  lemma LastResultNotifiesAgain(f: int, a: int, v: int)
    ensures var q2: Q := Queue(0, [Running(a)], 1, 1, 1, false, None, Some(Awaiter(f, true)));
            Complete(q2, 0, Ok(v)).effects == [Call(f, ResultArray([Done(v)]))]
  {
    var q2: Q := Queue(0, [Running(a)], 1, 1, 1, false, None, Some(Awaiter(f, true)));
    assert q2.tasks[..0] == [];
    assert Valid(q2);
    assert q2.tasks[0 := Done(v)] == [Done(v)];
  }
}

=== FILE: timing.dfy ===
/**
 When the handler is registered does not matter. Over any run of callbacks
 and loop heads that ends with nothing left to wait for, a handler registered
 before the run is called exactly as one registered after it: once, with the
 first error alone or with the final slot array.
 */
module Timing {
  import opened TaskQueue
  import opened Traces
  import opened Passes

  /** `evs` is made of callbacks and loop heads only: no task is deferred and no handler registered. */
  predicate OnlyCallbacks<A, V, E, H>(evs: seq<Event<A, V, E, H>>) {
    forall k :: 0 <= k < |evs| ==> evs[k].Callback? || evs[k].LoopHead?
  }

  lemma ResumeIgnoresAwaiter<A, V, E, H>(q: Queue<A, V, E, H>, w: Option<Awaiter<H>>)
    requires Valid(q)
    ensures Resume(q.(awaiter := w)).queue == Resume(q).queue.(awaiter := w)
  {
  }

  lemma ResultIgnoresAwaiter<A, V, E, H>(q: Queue<A, V, E, H>, w: Option<Awaiter<H>>, i: nat, v: V)
    requires Valid(q) && !q.Failed() && i < |q.tasks| && q.tasks[i].Running?
    ensures ResultStep(q.(awaiter := w), i, v).queue == ResultStep(q, i, v).queue.(awaiter := w)
  {
    var q2 := Store(q, i, v);
    assert Store(q.(awaiter := w), i, v) == q2.(awaiter := w);
    ResumeIgnoresAwaiter(q2, w);
  }

  /** A callback or a loop head does the same to the slots and counters whatever handler is registered. */
  lemma ApplyIgnoresAwaiter<A, V, E, H>(q: Queue<A, V, E, H>, w: Option<Awaiter<H>>, ev: Event<A, V, E, H>)
    requires Valid(q) && Admissible(q, ev) && (ev.Callback? || ev.LoopHead?)
    ensures Apply(q.(awaiter := w), ev).queue == Apply(q, ev).queue.(awaiter := w)
  {
    if ev.LoopHead? {
      ResumeIgnoresAwaiter(q, w);
    } else if !q.Failed() && ev.outcome.Ok? {
      ResultIgnoresAwaiter(q, w, ev.index, ev.outcome.value);
    }
  }

  lemma {:induction false} RunIgnoresAwaiter<A, V, E, H>(q: Queue<A, V, E, H>, w: Option<Awaiter<H>>,
                                                          evs: seq<Event<A, V, E, H>>)
    requires Valid(q) && OnlyCallbacks(evs)
    ensures Run(q.(awaiter := w), evs).Some? == Run(q, evs).Some?
    ensures Run(q, evs).Some? ==> Run(q.(awaiter := w), evs).value.queue == Run(q, evs).value.queue.(awaiter := w)
    decreases |evs|
  {
    if evs != [] && Admissible(q, evs[0]) {
      var s := Apply(q, evs[0]);
      ApplyIgnoresAwaiter(q, w, evs[0]);
      assert s.queue.(awaiter := w) == Apply(q.(awaiter := w), evs[0]).queue;
      RunIgnoresAwaiter(s.queue, w, evs[1..]);
    }
  }

  /** A settled queue stays as it is under callbacks and loop heads, and calls nothing. */
  lemma ApplySettled<A, V, E, H>(q: Queue<A, V, E, H>, ev: Event<A, V, E, H>)
    requires Valid(q) && q.Settled() && Admissible(q, ev) && (ev.Callback? || ev.LoopHead?)
    ensures var r := Apply(q, ev);
            && r.effects == [] && r.queue.Settled()
            && r.queue.error == q.error && r.queue.awaiter == q.awaiter
            && (!q.Failed() ==> r.queue.tasks == q.tasks)
  {
    SettledHoldsResults(q);
  }

  lemma {:induction false} SettledStays<A, V, E, H>(q: Queue<A, V, E, H>, evs: seq<Event<A, V, E, H>>)
    requires Valid(q) && q.Settled() && OnlyCallbacks(evs) && Run(q, evs).Some?
    ensures var r := Run(q, evs).value;
            && Calls(r.effects) == [] && r.queue.Settled()
            && r.queue.error == q.error && r.queue.awaiter == q.awaiter
            && (!q.Failed() ==> r.queue.tasks == q.tasks)
    decreases |evs|
  {
    if evs != [] {
      RunFirst(q, evs);
      var s := Apply(q, evs[0]);
      ApplySettled(q, evs[0]);
      SettledStays(s.queue, evs[1..]);
      var t := Run(s.queue, evs[1..]).value;
      CallsConcat(s.effects, t.effects);
    }
  }

  /**
   Until the queue settles, callbacks and loop heads call no handler; the
   callback that settles it calls the handler once, with what the final queue
   holds.
   */
  lemma {:induction false} NotifiedOnce<A, V, E, H>(q: Queue<A, V, E, H>, evs: seq<Event<A, V, E, H>>)
    requires Valid(q) && !q.Settled() && OnlyCallbacks(evs) && Run(q, evs).Some?
    ensures var r := Run(q, evs).value;
            && r.queue.awaiter == q.awaiter
            && Calls(r.effects) == if r.queue.Settled() then Notify(r.queue) else []
    decreases |evs|
  {
    if evs != [] {
      RunFirst(q, evs);
      var s := Apply(q, evs[0]);
      var t := Run(s.queue, evs[1..]).value;
      ApplyUnsettled(q, evs[0]);
      CallsConcat(s.effects, t.effects);
      if s.queue.Settled() {
        SettledStays(s.queue, evs[1..]);
        assert Notify(t.queue) == Notify(s.queue);
      } else {
        NotifiedOnce(s.queue, evs[1..]);
      }
    }
  }

  /** Before the queue settles, a callback calls the handler exactly when it settles the queue. */
  lemma ApplyUnsettled<A, V, E, H>(q: Queue<A, V, E, H>, ev: Event<A, V, E, H>)
    requires Valid(q) && !q.Settled() && Admissible(q, ev) && (ev.Callback? || ev.LoopHead?)
    ensures var r := Apply(q, ev);
            && r.queue.awaiter == q.awaiter
            && Calls(r.effects) == if r.queue.Settled() then Notify(r.queue) else []
  {
    if ev.LoopHead? {
      var r := Resume(q);
      InvokesRangeInvoked(r.effects, q.tasks, q.started, r.queue.started);
    }
  }

  /**
   Registering a handler before a run of callbacks, or after it once nothing
   is left to wait for, gives the same handler calls: exactly one, the same in
   both orders.
   */
  lemma RegistrationBeforeOrAfterRun<A, V, E, H>(q: Queue<A, V, E, H>, reg: Event<A, V, E, H>,
                                                 evs: seq<Event<A, V, E, H>>)
    requires Valid(q) && q.awaiter.None?
    requires reg.AwaitCall? || reg.AwaitAllCall?
    requires OnlyCallbacks(evs) && Run(q, evs).Some? && Run(q, evs).value.queue.Settled()
    ensures Run(q, [reg] + evs).Some?
    ensures var r := Run(q, evs).value;
            var before := Calls(Run(q, [reg] + evs).value.effects);
            var after := Calls(r.effects + Apply(r.queue, reg).effects);
            before == after && |after| == 1
  {
    var r := Run(q, evs).value;
    var a := Some(Awaiter(reg.handler, reg.AwaitAllCall?));
    var q1 := q.(awaiter := a);
    var r1 := Apply(q, reg);
    assert r1.queue == q1;
    RunIgnoresAwaiter(q, a, evs);
    var t := Run(q1, evs).value;
    assert t.queue == r.queue.(awaiter := a);
    // registered first
    RunCons(q, reg, evs);
    assert Run(q, [reg] + evs).value.effects == r1.effects + t.effects;
    CallsConcat(r1.effects, t.effects);
    // registered last
    var s := Apply(r.queue, reg);
    assert s.queue == t.queue;
    CallsConcat(r.effects, s.effects);
    CallsOfNotify(t.queue);
    if q.Settled() {
      SettledStays(q, evs);
      SettledStays(q1, evs);
      CallsOfNotify(q1);
      assert Notify(t.queue) == Notify(q1);
    } else {
      NotifiedOnce(q, evs);
      NotifiedOnce(q1, evs);
    }
  }
}

=== FILE: traces.dfy ===
/**
 Runs of a queue: any sequence of the things that can happen to it, in the
 order its single thread performs them, and what holds along every run.

 A task's callback may be called synchronously, from inside the invocation
 that started it, and the source's `pop` loop resumes at its loop head only
 after that invocation returns. `LoopHead` is that resumption. A run may place
 it anywhere, so the results below hold however deeply passes of `pop`,
 callbacks, `defer`s and handler calls nest within one another.
 */
module Traces {
  import opened TaskQueue

  datatype Event<A, V, E, H> =
    | DeferCall(args: A)
    | Callback(index: nat, outcome: Outcome<V, E>)
    | AwaitCall(handler: H)
    | AwaitAllCall(handler: H)
    | LoopHead

  /** The source's one demand on its callers: a callback belongs to a task that is running. */
  predicate Admissible<A, V, E, H>(q: Queue<A, V, E, H>, ev: Event<A, V, E, H>) {
    ev.Callback? ==> ev.index < |q.tasks| && q.tasks[ev.index].Running?
  }

  /**
   `defer` up to and including the first loop head of its pass of `pop`; the
   pass goes on with `LoopHead` events, between which the started task may do
   anything.
   */
  function DeferStep<A, V, E, H>(q: Queue<A, V, E, H>, args: A): (r: Step<A, V, E, H>)
    requires Valid(q)
    ensures Valid(r.queue) && r.queue.parallelism == q.parallelism
    ensures q.Failed() ==> r == Step(q, [])
    ensures !q.Failed() ==>
              && StartsRange(q.tasks + [Queued(args)], r.queue.tasks, q.started, r.queue.started)
              && r.queue == q.(tasks := r.queue.tasks, started := r.queue.started, active := r.queue.active,
                               remaining := q.remaining + 1, popping := r.queue.popping)
    // at most the next slot starts before the pass returns to its loop head
    ensures q.started <= r.queue.started <= q.started + 1
    // `pop()` always runs: the next slot starts exactly when the bound allows one more
    ensures !q.Failed() ==> r.queue.started == q.started + (if q.HasSlot() then 1 else 0)
    ensures !q.Failed() ==> r.queue.popping == q.HasSlot()
    ensures Invoked(r.effects) == Range(q.started, r.queue.started)
    ensures Calls(r.effects) == [] && ResultsFrom(r.effects, r.queue.tasks)
  {
    if q.Failed() then Step(q, []) else Admit(q, args)
  }

  /** `defer` on a queue that has not failed: the task is appended, then the first loop head runs. */
  function Admit<A, V, E, H>(q: Queue<A, V, E, H>, args: A): (r: Step<A, V, E, H>)
    requires Valid(q) && !q.Failed()
    ensures Valid(r.queue)
    ensures StartsRange(q.tasks + [Queued(args)], r.queue.tasks, q.started, r.queue.started)
    ensures r.queue == q.(tasks := r.queue.tasks, started := r.queue.started, active := r.queue.active,
                          remaining := q.remaining + 1, popping := r.queue.popping)
    ensures q.started <= r.queue.started <= q.started + 1
    ensures r.queue.started == q.started + (if q.HasSlot() then 1 else 0) && r.queue.popping == q.HasSlot()
    ensures Invoked(r.effects) == Range(q.started, r.queue.started)
    ensures Calls(r.effects) == [] && ResultsFrom(r.effects, r.queue.tasks)
  {
    var e := Enqueue(q, args);
    assert e.CanStart() == q.HasSlot();
    var r := Resume(e);
    InvokesRangeInvoked(r.effects, e.tasks, e.started, r.queue.started);
    r
  }

  /** `callback(i)` up to and including the first loop head of the pass of `pop` it may begin. */
  function CallbackStep<A, V, E, H>(q: Queue<A, V, E, H>, i: nat, o: Outcome<V, E>): (r: Step<A, V, E, H>)
    requires Valid(q)
    requires i < |q.tasks| && q.tasks[i].Running?
    ensures Valid(r.queue) && r.queue.parallelism == q.parallelism && r.queue.awaiter == q.awaiter
    ensures r.queue.error == if q.Failed() || o.Ok? then q.error else Some(o.error)
    ensures q.Failed() ==> r.queue.started == q.started && |r.queue.tasks| == |q.tasks| && r.effects == []
    ensures q.started <= r.queue.started <= q.started + 1
    ensures Invoked(r.effects) == Range(q.started, r.queue.started)
    ensures KeepsResults(q.tasks, r.queue.tasks, i, if o.Ok? then Some(o.value) else None)
    ensures ResultsFrom(r.effects, r.queue.tasks)
    // a result is stored in slot `i`, and the handler is called exactly when it was the last one
    ensures !q.Failed() && o.Ok? ==>
              && r.queue.tasks[i] == Done(o.value) && r.queue.remaining == q.remaining - 1
              && (Calls(r.effects) != [] <==> q.remaining == 1 && q.awaiter.Some?)
    // until the first error, the handler is called exactly when the callback settles the queue
    ensures !q.Failed() ==> Calls(r.effects) == if r.queue.Settled() then Notify(r.queue) else []
    // the first error starts nothing; a result that is not the last one runs `popping || pop()`
    ensures !q.Failed() && o.Err? ==> r.queue.started == q.started
    ensures !q.Failed() && o.Ok? && q.remaining > 1 ==>
              r.queue.started == q.started + (if !q.popping && q.started < |q.tasks| then 1 else 0)
    // the `popping` guard stays set under a running pass, and is otherwise the loop condition
    ensures r.queue.popping == (q.popping || (!q.Failed() && o.Ok? && q.remaining > 1 && q.started < |q.tasks|))
  {
    if q.Failed() then Squelch(q, i) else Report(q, i, o)
  }

  /** `callback(i)` before the first error, up to the first loop head of the pass it may begin. */
  function Report<A, V, E, H>(q: Queue<A, V, E, H>, i: nat, o: Outcome<V, E>): (r: Step<A, V, E, H>)
    requires Valid(q) && !q.Failed()
    requires i < |q.tasks| && q.tasks[i].Running?
    ensures Valid(r.queue) && r.queue.parallelism == q.parallelism && r.queue.awaiter == q.awaiter
    ensures r.queue.error == if o.Ok? then q.error else Some(o.error)
    ensures q.started <= r.queue.started <= q.started + 1
    ensures Invoked(r.effects) == Range(q.started, r.queue.started)
    ensures KeepsResults(q.tasks, r.queue.tasks, i, if o.Ok? then Some(o.value) else None)
    ensures ResultsFrom(r.effects, r.queue.tasks)
    ensures o.Ok? ==>
              && r.queue.tasks[i] == Done(o.value) && r.queue.remaining == q.remaining - 1
              && (Calls(r.effects) != [] <==> q.remaining == 1 && q.awaiter.Some?)
    ensures Calls(r.effects) == if r.queue.Settled() then Notify(r.queue) else []
    ensures o.Err? ==> r.queue.started == q.started
    ensures o.Ok? && q.remaining > 1 ==>
              r.queue.started == q.started + (if !q.popping && q.started < |q.tasks| then 1 else 0)
    ensures r.queue.popping == (q.popping || (o.Ok? && q.remaining > 1 && q.started < |q.tasks|))
  {
    match o
    case Err(e) => ErrorStep(q, i, e)
    case Ok(v) => ResultStep(q, i, v)
  }

  /** The error path of `callback(i)`: the error is recorded, nothing starts, and the handler is notified. */
  function ErrorStep<A, V, E, H>(q: Queue<A, V, E, H>, i: nat, e: E): (r: Step<A, V, E, H>)
    requires Valid(q) && !q.Failed()
    requires i < |q.tasks| && q.tasks[i].Running?
    ensures Valid(r.queue) && r.queue.parallelism == q.parallelism && r.queue.awaiter == q.awaiter
    ensures r.queue.error == Some(e) && r.queue.Settled()
    ensures r.queue.started == q.started && r.queue.popping == q.popping
    ensures Invoked(r.effects) == [] && Calls(r.effects) == Notify(r.queue)
    ensures KeepsResults(q.tasks, r.queue.tasks, i, None)
    ensures ResultsFrom(r.effects, r.queue.tasks)
  {
    Fail(q, i, e)
  }

  /** The success path of `callback(i)`, up to the first loop head of the pass it may begin. */
  function ResultStep<A, V, E, H>(q: Queue<A, V, E, H>, i: nat, v: V): (r: Step<A, V, E, H>)
    requires Valid(q) && !q.Failed()
    requires i < |q.tasks| && q.tasks[i].Running?
    ensures Valid(r.queue) && r.queue.parallelism == q.parallelism && r.queue.awaiter == q.awaiter
    ensures r.queue.error == q.error
    ensures q.started <= r.queue.started <= q.started + 1
    ensures Invoked(r.effects) == Range(q.started, r.queue.started)
    ensures KeepsResults(q.tasks, r.queue.tasks, i, Some(v))
    ensures ResultsFrom(r.effects, r.queue.tasks)
    // the result is stored in slot `i`, and the handler is called exactly when it was the last one
    ensures r.queue.tasks[i] == Done(v) && r.queue.remaining == q.remaining - 1
    ensures Calls(r.effects) == if r.queue.Settled() then Notify(r.queue) else []
    ensures Calls(r.effects) != [] <==> q.remaining == 1 && q.awaiter.Some?
    // `popping || pop()`: under a running pass nothing starts, otherwise the freed slot takes the next waiting task
    ensures q.remaining > 1 ==>
              r.queue.started == q.started + (if !q.popping && q.started < |q.tasks| then 1 else 0)
    ensures r.queue.popping == (q.popping || (q.remaining > 1 && q.started < |q.tasks|))
  {
    var q2 := Store(q, i, v);
    if q2.remaining == 0 then
      StartsRangeKeepsResults(q.tasks, q2.tasks, q2.tasks, i, v, q.started, q.started);
      CallsOfNotify(q2);
      Step(q2, Notify(q2))
    else
      var r := ResumeUnlessPopping(q2);
      StartsRangeKeepsResults(q.tasks, q2.tasks, r.queue.tasks, i, v, q.started, r.queue.started);
      assert r.queue.tasks[i] == q2.tasks[i];
      r
  }

  /** `popping || pop()`, up to and including the first loop head of the pass it may begin. */
  function ResumeUnlessPopping<A, V, E, H>(q: Queue<A, V, E, H>): (r: Step<A, V, E, H>)
    requires Valid(q)
    ensures Valid(r.queue)
    ensures q.popping ==> r == Step(q, [])
    // otherwise the loop head runs: it starts the next slot exactly when `pop`'s loop condition holds
    ensures !q.popping ==> r.queue.popping == q.CanStart() && r.queue.started == q.started + (if q.CanStart() then 1 else 0)
    ensures r.queue == q.(tasks := r.queue.tasks, started := r.queue.started, active := r.queue.active,
                          popping := r.queue.popping)
    ensures StartsRange(q.tasks, r.queue.tasks, q.started, r.queue.started)
    ensures q.started <= r.queue.started <= q.started + 1
    ensures Invoked(r.effects) == Range(q.started, r.queue.started)
    ensures Calls(r.effects) == [] && ResultsFrom(r.effects, r.queue.tasks)
  {
    if q.popping then Step(q, [])
    else
      var r := Resume(q);
      InvokesRangeInvoked(r.effects, q.tasks, q.started, r.queue.started);
      r
  }

  /** One event applied to the queue. */
  function Apply<A, V, E, H>(q: Queue<A, V, E, H>, ev: Event<A, V, E, H>): (r: Step<A, V, E, H>)
    requires Valid(q) && Admissible(q, ev)
    ensures Valid(r.queue) && r.queue.parallelism == q.parallelism
    ensures q.started <= r.queue.started && Invoked(r.effects) == Range(q.started, r.queue.started)
  {
    match ev
    case DeferCall(a) => DeferStep(q, a)
    case Callback(i, o) => CallbackStep(q, i, o)
    case AwaitCall(f) => Await(q, f)
    case AwaitAllCall(f) => AwaitAll(q, f)
    case LoopHead =>
      var r := Resume(q);
      InvokesRangeInvoked(r.effects, q.tasks, q.started, r.queue.started);
      r
  }

  /**
   A whole run, with every effect in order; `None` when some callback belongs
   to a task that is not running. Along every run the bound holds and tasks
   start in slot order, each once: the slots started are exactly the next ones
   after those already started.
   */
  function Run<A, V, E, H>(q: Queue<A, V, E, H>, evs: seq<Event<A, V, E, H>>): (r: Option<Step<A, V, E, H>>)
    requires Valid(q)
    ensures r.Some? ==> Valid(r.value.queue) && r.value.queue.parallelism == q.parallelism
    ensures r.Some? ==> q.parallelism == 0 || r.value.queue.active <= q.parallelism
    ensures r.Some? ==> q.started <= r.value.queue.started
    ensures r.Some? ==> Invoked(r.value.effects) == Range(q.started, r.value.queue.started)
    decreases |evs|
  {
    if evs == [] then Some(Step(q, []))
    else if !Admissible(q, evs[0]) then None
    else
      var s := Apply(q, evs[0]);
      match Run(s.queue, evs[1..])
      case None => None
      case Some(t) =>
        InvokedConcat(s.effects, t.effects);
        RangeConcat(q.started, s.queue.started, t.queue.started);
        Some(Step(t.queue, s.effects + t.effects))
  }

  /** A run that is not empty is its first event's step followed by the run of the rest. */
  lemma RunFirst<A, V, E, H>(q: Queue<A, V, E, H>, evs: seq<Event<A, V, E, H>>)
    requires Valid(q) && evs != [] && Run(q, evs).Some?
    ensures Admissible(q, evs[0])
    ensures var s := Apply(q, evs[0]);
            && Run(s.queue, evs[1..]).Some?
            && Run(q, evs).value == Step(Run(s.queue, evs[1..]).value.queue, s.effects + Run(s.queue, evs[1..]).value.effects)
  {
  }

  /** The error of the first callback in `evs` that reports one. */
  function FirstError<A, V, E, H>(evs: seq<Event<A, V, E, H>>): Option<E>
  {
    if evs == [] then None
    else if evs[0].Callback? && evs[0].outcome.Err? then Some(evs[0].outcome.error)
    else FirstError(evs[1..])
  }

  lemma ApplyError<A, V, E, H>(q: Queue<A, V, E, H>, ev: Event<A, V, E, H>)
    requires Valid(q) && Admissible(q, ev)
    ensures Apply(q, ev).queue.error ==
            if q.Failed() || !(ev.Callback? && ev.outcome.Err?) then q.error else Some(ev.outcome.error)
  {
  }

  /**
   The first error wins: at the end of every run the queue holds the error it
   already had, or else the error of the first callback that reported one.
   */
  lemma {:induction false} FirstErrorWins<A, V, E, H>(q: Queue<A, V, E, H>, evs: seq<Event<A, V, E, H>>)
    requires Valid(q) && Run(q, evs).Some?
    ensures Run(q, evs).value.queue.error == if q.Failed() then q.error else FirstError(evs)
    decreases |evs|
  {
    if evs != [] {
      var s := Apply(q, evs[0]);
      ApplyError(q, evs[0]);
      FirstErrorWins(s.queue, evs[1..]);
    }
  }

  /** Every handler call in `effs` carries the error `e` alone. */
  ghost predicate OnlyError<A, V, E, H>(effs: seq<Effect<A, V, E, H>>, e: E) {
    forall k :: 0 <= k < |effs| && effs[k].Call? ==> effs[k].payload == ErrorOnly(e)
  }

  lemma ApplyAfterFailure<A, V, E, H>(q: Queue<A, V, E, H>, ev: Event<A, V, E, H>)
    requires Valid(q) && Admissible(q, ev) && q.Failed()
    ensures var r := Apply(q, ev);
            && r.queue.error == q.error
            && r.queue.started == q.started
            && |r.queue.tasks| == |q.tasks|
            && OnlyError(r.effects, q.error.value)
  {
  }

  /**
   A failed queue stays failed with the same error, starts no task, accepts no
   new task, and any handler it calls gets that error alone.
   */
  lemma {:induction false} FailureIsFinal<A, V, E, H>(q: Queue<A, V, E, H>, evs: seq<Event<A, V, E, H>>)
    requires Valid(q) && q.Failed() && Run(q, evs).Some?
    ensures var r := Run(q, evs).value;
            && r.queue.error == q.error
            && r.queue.started == q.started
            && |r.queue.tasks| == |q.tasks|
            && Invoked(r.effects) == []
            && OnlyError(r.effects, q.error.value)
    decreases |evs|
  {
    if evs != [] {
      var s := Apply(q, evs[0]);
      ApplyAfterFailure(q, evs[0]);
      FailureIsFinal(s.queue, evs[1..]);
      var t := Run(s.queue, evs[1..]).value;
      assert Run(q, evs).value.effects == s.effects + t.effects;
    }
  }

  /** Every result in `ts` was reported by the callback of its own slot somewhere in `h`. */
  ghost predicate Reported<A, V, E, H>(ts: seq<Entry<A, V>>, h: seq<Event<A, V, E, H>>) {
    forall j :: 0 <= j < |ts| && ts[j].Done? ==> Callback(j, Ok(ts[j].value)) in h
  }

  /** Every handler call in `effs` that carries results carries only results reported in `h`, one per slot. */
  ghost predicate PayloadsReported<A, V, E, H>(effs: seq<Effect<A, V, E, H>>, h: seq<Event<A, V, E, H>>) {
    forall k :: 0 <= k < |effs| && effs[k].Call? && !effs[k].payload.ErrorOnly? ==>
      AllDone(effs[k].payload.results) && Reported(effs[k].payload.results, h)
  }

  lemma ApplyReports<A, V, E, H>(q: Queue<A, V, E, H>, ev: Event<A, V, E, H>, h: seq<Event<A, V, E, H>>)
    requires Valid(q) && Admissible(q, ev) && Reported(q.tasks, h)
    ensures Reported(Apply(q, ev).queue.tasks, h + [ev])
    ensures PayloadsReported(Apply(q, ev).effects, h + [ev])
  {
    var r := Apply(q, ev);
    var h' := h + [ev];
    ApplyReportsSlots(q, ev, h);
    ApplyResultsFrom(q, ev);
    PayloadsFromResults(r.effects, r.queue.tasks, h');
  }

  lemma ApplyReportsSlots<A, V, E, H>(q: Queue<A, V, E, H>, ev: Event<A, V, E, H>, h: seq<Event<A, V, E, H>>)
    requires Valid(q) && Admissible(q, ev) && Reported(q.tasks, h)
    ensures Reported(Apply(q, ev).queue.tasks, h + [ev])
  {
    var r := Apply(q, ev);
    var h' := h + [ev];
    ReportedWeaken(q.tasks, h, h');
    match ev {
      case DeferCall(a) => DeferReportsSlots(q, a, h');
      case Callback(i, o) =>
        assert ev in h';
        KeptReported(q.tasks, CallbackStep(q, i, o).queue.tasks, i, if o.Ok? then Some(o.value) else None, h');
      case AwaitCall(f) =>
      case AwaitAllCall(f) =>
      case LoopHead =>
    }
  }

  lemma DeferReportsSlots<A, V, E, H>(q: Queue<A, V, E, H>, args: A, h: seq<Event<A, V, E, H>>)
    requires Valid(q) && Reported(q.tasks, h)
    ensures Reported(DeferStep(q, args).queue.tasks, h)
  {
    var r := DeferStep(q, args);
    if !q.Failed() {
      forall j | 0 <= j < |r.queue.tasks| && r.queue.tasks[j].Done?
        ensures Callback(j, Ok(r.queue.tasks[j].value)) in h
      {
        assert j < |q.tasks| && r.queue.tasks[j] == q.tasks[j];
      }
    }
  }

  lemma KeptReported<A, V, E, H>(before: seq<Entry<A, V>>, after: seq<Entry<A, V>>, i: nat, gained: Option<V>,
                                 h: seq<Event<A, V, E, H>>)
    requires KeepsResults(before, after, i, gained) && Reported(before, h)
    requires gained.Some? ==> Callback(i, Ok(gained.value)) in h
    ensures Reported(after, h)
  {
  }

  lemma ApplyResultsFrom<A, V, E, H>(q: Queue<A, V, E, H>, ev: Event<A, V, E, H>)
    requires Valid(q) && Admissible(q, ev)
    ensures ResultsFrom(Apply(q, ev).effects, Apply(q, ev).queue.tasks)
  {
    if ev.LoopHead? {
      var r := Resume(q);
      InvokesRangeInvoked(r.effects, q.tasks, q.started, r.queue.started);
    }
  }

  lemma PayloadsFromResults<A, V, E, H>(effs: seq<Effect<A, V, E, H>>, ts: seq<Entry<A, V>>, h: seq<Event<A, V, E, H>>)
    requires ResultsFrom(effs, ts) && Reported(ts, h)
    ensures PayloadsReported(effs, h)
  {
  }

  lemma ReportedWeaken<A, V, E, H>(ts: seq<Entry<A, V>>, h1: seq<Event<A, V, E, H>>, h2: seq<Event<A, V, E, H>>)
    requires Reported(ts, h1) && forall x :: x in h1 ==> x in h2
    ensures Reported(ts, h2)
  {
  }

  /**
   Results land in submission order: along every run, each slot that holds a
   result holds the one its own task reported, and every array of results a
   handler receives is complete and ordered by slot, whatever order the
   callbacks came in.
   */
  lemma {:induction false} ResultsInSubmissionOrder<A, V, E, H>(
    q: Queue<A, V, E, H>, h: seq<Event<A, V, E, H>>, evs: seq<Event<A, V, E, H>>)
    requires Valid(q) && Reported(q.tasks, h) && Run(q, evs).Some?
    ensures Reported(Run(q, evs).value.queue.tasks, h + evs)
    ensures PayloadsReported(Run(q, evs).value.effects, h + evs)
    decreases |evs|
  {
    if evs == [] {
      assert h + evs == h;
    } else {
      RunFirst(q, evs);
      var s := Apply(q, evs[0]);
      ApplyReports(q, evs[0], h);
      ResultsInSubmissionOrder(s.queue, h + [evs[0]], evs[1..]);
      HistoryGrows(h, evs);
      var t := Run(s.queue, evs[1..]).value;
      PayloadsReportedAppend(s.effects, t.effects, h + [evs[0]], h + evs);
    }
  }

  lemma HistoryGrows<T>(h: seq<T>, evs: seq<T>)
    requires evs != []
    ensures h + [evs[0]] + evs[1..] == h + evs && h + [evs[0]] <= h + evs
  {
    assert evs == [evs[0]] + evs[1..];
  }

  lemma PayloadsReportedAppend<A, V, E, H>(e1: seq<Effect<A, V, E, H>>, e2: seq<Effect<A, V, E, H>>,
                                           h1: seq<Event<A, V, E, H>>, h2: seq<Event<A, V, E, H>>)
    requires PayloadsReported(e1, h1) && PayloadsReported(e2, h2) && h1 <= h2
    ensures PayloadsReported(e1 + e2, h2)
  {
    var all := e1 + e2;
    forall k | 0 <= k < |all| && all[k].Call? && !all[k].payload.ErrorOnly?
      ensures AllDone(all[k].payload.results) && Reported(all[k].payload.results, h2)
    {
      if k < |e1| {
        assert all[k] == e1[k];
        ReportedWeaken(e1[k].payload.results, h1, h2);
      } else {
        assert all[k] == e2[k - |e1|];
      }
    }
  }

  /** `after` keeps every result of `before` in its slot; it may have more slots. */
  ghost predicate KeepsDone<A, V>(before: seq<Entry<A, V>>, after: seq<Entry<A, V>>) {
    && |before| <= |after|
    && forall j :: 0 <= j < |before| && before[j].Done? ==> after[j] == before[j]
  }

  lemma ApplyKeepsDone<A, V, E, H>(q: Queue<A, V, E, H>, ev: Event<A, V, E, H>)
    requires Valid(q) && Admissible(q, ev)
    ensures KeepsDone(q.tasks, Apply(q, ev).queue.tasks)
  {
    if ev.DeferCall? && !q.Failed() {
      var r := Apply(q, ev);
      forall j | 0 <= j < |q.tasks| && q.tasks[j].Done?
        ensures r.queue.tasks[j] == q.tasks[j]
      {
        assert (q.tasks + [Queued(ev.args)])[j] == q.tasks[j];
      }
    }
  }

  lemma {:induction false} RunKeepsDone<A, V, E, H>(q: Queue<A, V, E, H>, evs: seq<Event<A, V, E, H>>)
    requires Valid(q) && Run(q, evs).Some?
    ensures KeepsDone(q.tasks, Run(q, evs).value.queue.tasks)
    decreases |evs|
  {
    if evs != [] {
      var s := Apply(q, evs[0]);
      ApplyKeepsDone(q, evs[0]);
      RunKeepsDone(s.queue, evs[1..]);
    }
  }

  /**
   Every result a callback in `evs` reports before the first error is in its
   own slot of `ts`.
   */
  ghost predicate Stored<A, V, E, H>(evs: seq<Event<A, V, E, H>>, ts: seq<Entry<A, V>>) {
    forall k :: 0 <= k < |evs| && evs[k].Callback? && evs[k].outcome.Ok? && FirstError(evs[..k]).None? ==>
      evs[k].index < |ts| && ts[evs[k].index] == Done(evs[k].outcome.value)
  }

  lemma StoredCons<A, V, E, H>(evs: seq<Event<A, V, E, H>>, ts: seq<Entry<A, V>>)
    requires evs != []
    requires evs[0].Callback? && evs[0].outcome.Ok? ==>
               evs[0].index < |ts| && ts[evs[0].index] == Done(evs[0].outcome.value)
    requires !(evs[0].Callback? && evs[0].outcome.Err?) ==> Stored(evs[1..], ts)
    ensures Stored(evs, ts)
  {
    forall k | 0 <= k < |evs| && evs[k].Callback? && evs[k].outcome.Ok? && FirstError(evs[..k]).None?
      ensures evs[k].index < |ts| && ts[evs[k].index] == Done(evs[k].outcome.value)
    {
      if k > 0 {
        assert evs[..k][0] == evs[0];
        assert evs[..k][1..] == evs[1..][..k - 1];
        assert evs[1..][k - 1] == evs[k];
      }
    }
  }

  /**
   The converse of `Reported`: along every run of a queue that has not failed,
   each result a callback reports before the first error ends up in its own
   slot and is still there at the end.
   */
  lemma {:induction false} ResultsStored<A, V, E, H>(q: Queue<A, V, E, H>, evs: seq<Event<A, V, E, H>>)
    requires Valid(q) && !q.Failed() && Run(q, evs).Some?
    ensures Stored(evs, Run(q, evs).value.queue.tasks)
    decreases |evs|
  {
    if evs != [] {
      RunFirst(q, evs);
      var s := Apply(q, evs[0]);
      var ts := Run(s.queue, evs[1..]).value.queue.tasks;
      ApplyError(q, evs[0]);
      if !s.queue.Failed() {
        ResultsStored(s.queue, evs[1..]);
      }
      if evs[0].Callback? && evs[0].outcome.Ok? {
        RunKeepsDone(s.queue, evs[1..]);
      }
      StoredCons(evs, ts);
    }
  }

  /**
   Every handler call in `effs` that carries results carries slots that all
   hold results and are, in order, the first slots of `ts`.
   */
  ghost predicate PayloadsAreSlots<A, V, E, H>(effs: seq<Effect<A, V, E, H>>, ts: seq<Entry<A, V>>) {
    forall k :: 0 <= k < |effs| && effs[k].Call? && !effs[k].payload.ErrorOnly? ==>
      && AllDone(effs[k].payload.results)
      && |effs[k].payload.results| <= |ts|
      && effs[k].payload.results == ts[..|effs[k].payload.results|]
  }

  /**
   A handler receives the slot array itself, as it stood when the handler was
   called; as no result ever leaves its slot, every payload of a run is an
   initial segment of the run's final slot array.
   */
  lemma {:induction false} PayloadsAreFinalSlots<A, V, E, H>(q: Queue<A, V, E, H>, evs: seq<Event<A, V, E, H>>)
    requires Valid(q) && Run(q, evs).Some?
    ensures PayloadsAreSlots(Run(q, evs).value.effects, Run(q, evs).value.queue.tasks)
    decreases |evs|
  {
    if evs != [] {
      var s := Apply(q, evs[0]);
      ApplyResultsFrom(q, evs[0]);
      RunKeepsDone(s.queue, evs[1..]);
      PayloadsAreFinalSlots(s.queue, evs[1..]);
      var t := Run(s.queue, evs[1..]).value;
      assert Run(q, evs).value == Step(t.queue, s.effects + t.effects);
      PayloadsAppend(s.effects, s.queue.tasks, t.effects, t.queue.tasks);
    }
  }

  lemma PayloadsAppend<A, V, E, H>(e1: seq<Effect<A, V, E, H>>, ts1: seq<Entry<A, V>>,
                                   e2: seq<Effect<A, V, E, H>>, ts2: seq<Entry<A, V>>)
    requires ResultsFrom(e1, ts1) && KeepsDone(ts1, ts2) && PayloadsAreSlots(e2, ts2)
    ensures PayloadsAreSlots(e1 + e2, ts2)
  {
    var all := e1 + e2;
    forall k | 0 <= k < |all| && all[k].Call? && !all[k].payload.ErrorOnly?
      ensures && AllDone(all[k].payload.results)
              && |all[k].payload.results| <= |ts2|
              && all[k].payload.results == ts2[..|all[k].payload.results|]
    {
      if k < |e1| {
        assert all[k] == e1[k];
      } else {
        assert all[k] == e2[k - |e1|];
      }
    }
  }

  /**
   From a fresh queue: every result in a slot came from that slot's callback;
   every result reported before the first error is in its slot; and every
   payload a handler receives holds results only, in slot order, and is the
   slot array as it stood when the handler was called.
   */
  lemma FreshQueueResults<A, V, E, H>(p: nat, evs: seq<Event<A, V, E, H>>)
    requires Run(Empty<A, V, E, H>(p), evs).Some?
    ensures var r := Run(Empty<A, V, E, H>(p), evs).value;
            && Reported(r.queue.tasks, evs)
            && PayloadsReported(r.effects, evs)
            && Stored(evs, r.queue.tasks)
            && PayloadsAreSlots(r.effects, r.queue.tasks)
  {
    ResultsInSubmissionOrder(Empty<A, V, E, H>(p), [], evs);
    assert [] + evs == evs;
    ResultsStored(Empty<A, V, E, H>(p), evs);
    PayloadsAreFinalSlots(Empty<A, V, E, H>(p), evs);
  }

  /**
   Registering a handler just before a callback or just after it makes no
   difference to what the handler is called with.
   */
  lemma RegistrationTimingIrrelevant<A, V, E, H>(q: Queue<A, V, E, H>, i: nat, o: Outcome<V, E>, reg: Event<A, V, E, H>)
    requires Valid(q) && !q.Failed() && i < |q.tasks| && q.tasks[i].Running?
    requires reg.AwaitCall? || reg.AwaitAllCall?
    ensures Apply(q, reg).effects == []
    ensures var before := Apply(Apply(q, reg).queue, Callback(i, o));
            var after := Apply(Apply(q, Callback(i, o)).queue, reg);
            Calls(before.effects) == after.effects
  {
    match o
    case Err(e) => TimingOnError(q, i, e, reg);
    case Ok(v) =>
      if q.remaining == 1 { TimingOnLastResult(q, i, v, reg); } else { TimingOnOtherResult(q, i, v, reg); }
  }

  lemma TimingOnError<A, V, E, H>(q: Queue<A, V, E, H>, i: nat, e: E, reg: Event<A, V, E, H>)
    requires Valid(q) && !q.Failed() && i < |q.tasks| && q.tasks[i].Running?
    requires reg.AwaitCall? || reg.AwaitAllCall?
    ensures Calls(Apply(Apply(q, reg).queue, Callback(i, Err(e))).effects)
            == Apply(Apply(q, Callback(i, Err(e))).queue, reg).effects
            == [Call(reg.handler, ErrorOnly(e))]
  {
    var w := Apply(q, reg).queue;
    var before := Complete(w, i, Err(e));
    assert before.effects == [Call(reg.handler, ErrorOnly(e))];
    assert Calls(before.effects) == [Call(reg.handler, ErrorOnly(e))] + Calls([]);
  }

  lemma TimingOnLastResult<A, V, E, H>(q: Queue<A, V, E, H>, i: nat, v: V, reg: Event<A, V, E, H>)
    requires Valid(q) && !q.Failed() && i < |q.tasks| && q.tasks[i].Running? && q.remaining == 1
    requires reg.AwaitCall? || reg.AwaitAllCall?
    ensures var ts := q.tasks[i := Done(v)];
            var payload := if reg.AwaitAllCall? then ResultArray(ts) else ResultArgs(ts);
            && Calls(Apply(Apply(q, reg).queue, Callback(i, Ok(v))).effects) == [Call(reg.handler, payload)]
            && Apply(Apply(q, Callback(i, Ok(v))).queue, reg).effects == [Call(reg.handler, payload)]
  {
    RegisteredBeforeLastResult(q, i, v, reg);
    RegisteredAfterLastResult(q, i, v, reg);
  }

  lemma RegisteredBeforeLastResult<A, V, E, H>(q: Queue<A, V, E, H>, i: nat, v: V, reg: Event<A, V, E, H>)
    requires Valid(q) && !q.Failed() && i < |q.tasks| && q.tasks[i].Running? && q.remaining == 1
    requires reg.AwaitCall? || reg.AwaitAllCall?
    ensures var ts := q.tasks[i := Done(v)];
            var payload := if reg.AwaitAllCall? then ResultArray(ts) else ResultArgs(ts);
            Calls(Apply(Apply(q, reg).queue, Callback(i, Ok(v))).effects) == [Call(reg.handler, payload)]
  {
    var w := Apply(q, reg).queue;
    var ts := q.tasks[i := Done(v)];
    var payload := if reg.AwaitAllCall? then ResultArray(ts) else ResultArgs(ts);
    LastResultNotifies(w, i, v);
    var before := Apply(w, Callback(i, Ok(v)));
    assert before.effects == [Call(reg.handler, payload)];
    assert Calls(before.effects) == [Call(reg.handler, payload)] + Calls([]);
  }

  lemma RegisteredAfterLastResult<A, V, E, H>(q: Queue<A, V, E, H>, i: nat, v: V, reg: Event<A, V, E, H>)
    requires Valid(q) && !q.Failed() && i < |q.tasks| && q.tasks[i].Running? && q.remaining == 1
    requires reg.AwaitCall? || reg.AwaitAllCall?
    ensures var ts := q.tasks[i := Done(v)];
            var payload := if reg.AwaitAllCall? then ResultArray(ts) else ResultArgs(ts);
            Apply(Apply(q, Callback(i, Ok(v))).queue, reg).effects == [Call(reg.handler, payload)]
  {
    LastResultNotifies(q, i, v);
  }

  /** The last result of a queue that has not failed is stored, and the handler notified at once. */
  lemma LastResultNotifies<A, V, E, H>(q: Queue<A, V, E, H>, i: nat, v: V)
    requires Valid(q) && !q.Failed() && i < |q.tasks| && q.tasks[i].Running? && q.remaining == 1
    ensures CallbackStep(q, i, Ok(v)) == Step(Store(q, i, v), Notify(Store(q, i, v)))
  {
  }

  lemma TimingOnOtherResult<A, V, E, H>(q: Queue<A, V, E, H>, i: nat, v: V, reg: Event<A, V, E, H>)
    requires Valid(q) && !q.Failed() && i < |q.tasks| && q.tasks[i].Running? && q.remaining != 1
    requires reg.AwaitCall? || reg.AwaitAllCall?
    ensures Calls(Apply(Apply(q, reg).queue, Callback(i, Ok(v))).effects) == []
    ensures Apply(Apply(q, Callback(i, Ok(v))).queue, reg).effects == []
  {
  }
}
